=== FILE: README.md ===
# Quicket ticketing core in Dafny

This project models the domain rules of quicket's IT help-desk API as pure
functions over an in-memory store. It covers:

- who may log in and with which role: the Keycloak profile mapping, the credentials gate, the sign-in sync and the JWT/session copy;
- how users come into existence: registration, guest find-or-create and default-admin seeding;
- how tickets are created by signed-in users and by anonymous submitters, including the attachments of an anonymous submission;
- what the ticket list and the dashboard statistics show to each role.

The relational database becomes a `Store` of three sequences: users, tickets and attachments. The store keeps two invariants: user ids and emails are unique, and ticket ids are unique. Each handler is a function from a store and a request to a new store and a `Result`. Its error cases are `Unauthorized` (401), `InvalidInput` (400 'Invalid input'), `UserAlreadyExists` (400) and `InternalError` (500).

Modules:

- `Text`: UTF-16 code-unit lengths, ASCII lower-casing, decimal rendering and string splitting lemmas.
- `Types`: entities, enums, the store and its invariants, and lookups.
- `Auth`: `src/lib/auth.ts`.
- `Register`: the registration route.
- `SeedAdmin`: `src/lib/seed-admin.ts`.
- `Tickets`: GET and POST `/api/tickets`, and the ticket schema shared with the anonymous route.
- `Uploads`: the file half of the anonymous route.
- `Anonymous`: the rest of the anonymous route.
- `Stats`: `/api/stats`.

Everything the handlers take from outside is a parameter:

- Zod's email check (`isEmail`);
- bcrypt's hash and compare;
- the category enum's members (`categories`);
- the ids and timestamps the database assigns;
- the clock reading per uploaded file;
- whether each file write succeeds;
- whether the upload directory can be created;
- `createMagicLink`.

A new id that is already in use stands for a failed database create, which the route handlers answer with 500. The failed create itself stores nothing, but the anonymous route keeps whatever it stored before the failure: the guest user when the ticket id is taken, and the user and the ticket when the upload directory cannot be made. In `signIn` a failed create is caught and the sign-in is refused with `false` rather than a 500. Zod's `min`/`max` count UTF-16 code units, and so does the model (`Text.Utf16Length`). The file-name regex has no `u` flag, so a character outside the Basic Multilingual Plane becomes two underscores (`Uploads.SanitizeChar`).

## Model

| member | source | states |
|---|---|---|
| Types.ParseStatus | src/app/api/tickets/route.ts:42-44 | a query value names a status exactly when it is one of the five enum names; that status renders back to the same name |
| Types.ParsePriority | src/app/api/tickets/route.ts:46-48 | a query value names a priority exactly when it is one of the four enum names; that priority renders back to the same name |
| Types.StatusNameRoundTrip | src/app/api/tickets/route.ts:42-44 | parsing a status's name gives back that status |
| Types.PriorityNameRoundTrip | src/app/api/tickets/route.ts:46-48 | parsing a priority's name gives back that priority |
| Types.FindUnique | src/app/api/auth/register/route.ts:20-22 | `findUnique` by email, and by id as at src/lib/auth.ts:93-95: the index of a user whose field holds the value, or none exactly when no user's does |
| Types.AppendKeepsValidUsers | src/app/api/auth/register/route.ts:35-43 | appending a user whose id and email are both new keeps ids and emails unique |
| Types.EmailCountUnique | src/app/api/auth/register/route.ts:20-43 | with unique emails, a present email is held by exactly one user |
| Types.RoundHalfUp | src/app/api/stats/route.ts:132 | `Math.round(a / b)` for a positive b: the result r satisfies r - 1/2 <= a/b < r + 1/2, so halves round up |
| Text.Utf16Length | src/app/api/tickets/anonymous/route.ts:15-22 | the length Zod measures lies between the number of characters and twice that number |
| Text.Utf16LengthAppend | src/app/api/tickets/anonymous/route.ts:119 | the UTF-16 length of a concatenation is the sum of the lengths |
| Text.AsciiLower | src/lib/auth.ts:30-32 | `toLowerCase`: the same length, each ASCII capital replaced by its small letter and every other character kept |
| Text.DecimalString | src/app/api/tickets/anonymous/route.ts:120 | `${n}` for a timestamp or index: a non-empty run of digits with no '-' |
| Text.DecimalRoundTrip | src/app/api/tickets/anonymous/route.ts:120 | reading back the decimal rendering of a number gives that number |
| Text.DecimalStringInjective | src/app/api/tickets/anonymous/route.ts:120 | distinct numbers render to distinct decimal strings |
| Text.SplitAtFirst | src/app/api/tickets/anonymous/route.ts:120 | a dash-joined name whose first part has no dash determines both parts |
| Auth.AnyAdminRole | src/lib/auth.ts:30-34 | true exactly when some listed role is 'admin', 'it_admin' or 'administrator', ignoring case |
| Auth.MapProfile | src/lib/auth.ts:15-45 | ADMIN exactly when the combined realm, client and direct roles hold an admin name, otherwise USER and never GUEST; id is the subject; name is `name`, else `preferred_username`; the Keycloak flag is set |
| Auth.MapProfileRoleBySet | src/lib/auth.ts:25-34 | the mapped role depends only on which role names occur |
| Auth.MapProfileRolePermutation | src/lib/auth.ts:25-34 | rearranging role names across the three lists, or within them, leaves the mapped role unchanged |
| Auth.Authorize | src/lib/auth.ts:54-80 | succeeds exactly when email and password are non-empty and the user with that email has a password hash, is not a Keycloak user and passes the password check; it then returns that user's stored id, email, name, role, department and Keycloak flag |
| Auth.KeycloakUserCannotUseCredentials | src/lib/auth.ts:63-65 | a Keycloak user never passes the credentials login, whatever the password |
| Auth.NameOrDefault | src/lib/auth.ts:104 | a non-empty name is kept; a missing or empty one becomes 'User' |
| Auth.SignIn | src/lib/auth.ts:85-127 | other providers always pass with the store unchanged; a refused sign-in leaves the store unchanged |
| Auth.SignInCreatesUser | src/lib/auth.ts:97-108 | a first Keycloak sign-in appends exactly one user with the Keycloak id, the email, the mapped role, the Keycloak flag, no password, and 'User' for a missing name; ids and emails stay unique |
| Auth.SignInSyncsRole | src/lib/auth.ts:110-118 | a later Keycloak sign-in leaves the stored role equal to the mapped role and changes no other field or user |
| Auth.SignInFailsOnlyOnCreate | src/lib/auth.ts:92-124 | a Keycloak sign-in is refused exactly when the user is new and the create cannot succeed: the profile has no email, or another user already holds it |
| Auth.Jwt | src/lib/auth.ts:128-137 | on sign-in the token takes the user's id, role, Keycloak flag and department; otherwise the token is unchanged |
| Auth.Session | src/lib/auth.ts:138-146 | the session user, if there is one, takes the token's id, role, Keycloak flag and department and keeps its name and email |
| Auth.SessionCarriesUser | src/lib/auth.ts:128-146 | after `jwt` and then `session`, the session carries the signed-in user's id, role, Keycloak flag and department unchanged |
| Register.ParseRegisterBody | src/app/api/auth/register/route.ts:7-12 | accepts exactly a valid email, a password of at least 8 and a name of at least 2 code units, and an optional string department; the fields come back unchanged |
| Register.Register | src/app/api/auth/register/route.ts:14-68 | a failure stores nothing; a success means valid input and a previously unused email |
| Register.RegisterRejectsInvalidInput | src/app/api/auth/register/route.ts:56-60 | a body the schema rejects gives 'Invalid input' and stores nothing |
| Register.RegisterRejectsDuplicate | src/app/api/auth/register/route.ts:19-29 | a taken email gives 'User already exists' and stores nothing |
| Register.RegisterSuccess | src/app/api/auth/register/route.ts:31-54 | appends exactly one USER, not from Keycloak, storing the submitted email, name and department and the hash of the password; the response holds no password; every other user is unchanged; afterwards exactly one user has the email |
| Register.RegisterKeepsValid | src/app/api/auth/register/route.ts:14-54 | registration keeps ids and emails unique, whatever the outcome |
| SeedAdmin.OrDefault | src/lib/seed-admin.ts:22-26 | an unset or empty setting takes the default, otherwise the setting |
| SeedAdmin.SeedDefaultAdmin | src/lib/seed-admin.ts:9-48 | leaves the store unchanged exactly when it does not create; reports an existing admin exactly when an ADMIN exists; fails exactly when no ADMIN exists and the email or the new id is taken; otherwise appends one active, non-Keycloak ADMIN with the new id and the configured or default email, name and hashed password |
| SeedAdmin.SeedIdempotent | src/lib/seed-admin.ts:12-39 | seeding a second time leaves the store that one seeding produced |
| SeedAdmin.SeedEstablishesAdmin | src/lib/seed-admin.ts:12-41 | unless the create failed, an ADMIN exists afterwards |
| SeedAdmin.SeedConflictLeavesStore | src/lib/seed-admin.ts:30-47 | with no admin and a non-admin holding the default email, the create fails, the failure is swallowed and the store is unchanged |
| SeedAdmin.SeedKeepsValid | src/lib/seed-admin.ts:9-48 | seeding keeps ids and emails unique |
| Tickets.ParseTicketBody | src/app/api/tickets/route.ts:10-15 | accepts exactly a title of 5 to 200 code units, a description of at least 10, a known category and an absent or known priority; the fields come back unchanged |
| Tickets.NewTicket | src/app/api/tickets/route.ts:103-111 | a new ticket is OPEN and unassigned with no resolution time; it has the given priority, or MEDIUM when none was given, and the caller as creator |
| Tickets.InsertTicket | src/app/api/tickets/route.ts:103-127 | the ticket is appended exactly when its id is unused; otherwise the create fails with 500 |
| Tickets.InsertKeepsUniqueIds | src/app/api/tickets/route.ts:103-127 | appending a ticket with an unused id keeps ticket ids unique |
| Tickets.CreateTicket | src/app/api/tickets/route.ts:93-155 | no session gives 401 and no ticket; 400 exactly for a signed-in caller with a body the schema rejects; a signed-in caller with a valid body gets the ticket exactly when its id is unused, and 500 otherwise; success appends one OPEN, unassigned ticket created by the caller, with the submitted title, description and category, no resolution time, the request's timestamp, and the submitted priority or MEDIUM |
| Tickets.CreateTicketKeepsUniqueIds | src/app/api/tickets/route.ts:93-127 | creation keeps ticket ids unique |
| Tickets.BuildWhere | src/app/api/tickets/route.ts:25-48 | the query fails exactly when a status or priority filter names no enum member |
| Tickets.BuildWhereMeansListed | src/app/api/tickets/route.ts:30-48 | a ticket matches the built filter exactly when the listing rules admit it: own tickets only for USER, assigned to the caller only for an ADMIN asking for `assignedToMe=true`, plus the given status and priority |
| Tickets.Select | src/app/api/tickets/route.ts:50-51 | `findMany` keeps exactly the stored tickets that match, each as often as stored |
| Tickets.InsertByCreatedAt | src/app/api/tickets/route.ts:77-79 | inserting into a newest-first list keeps it newest first and adds exactly the one ticket |
| Tickets.SortNewestFirst | src/app/api/tickets/route.ts:77-79 | the result is a permutation of the input, ordered newest first |
| Tickets.ListTickets | src/app/api/tickets/route.ts:18-90 | no session gives 401; with a session the listing succeeds exactly when any given status and priority name enum members, and fails with 500 otherwise; a listing is newest first and holds each stored ticket the listing rules admit, as often as it is stored, and nothing else |
| Tickets.ListTicketsComplete | src/app/api/tickets/route.ts:30-80 | every stored ticket the listing rules admit is listed |
| Tickets.OnlyUsersAreScoped | src/app/api/tickets/route.ts:32-35 | the creator restriction applies to USER only: any other role without filters sees every stored ticket |
| Tickets.AssignedToMeOnlyForAdmins | src/app/api/tickets/route.ts:37-40 | for a caller who is not an ADMIN, `assignedToMe=true` changes nothing |
| Uploads.MaxFileSize | src/app/api/tickets/anonymous/route.ts:13 | an unset or empty MAX_FILE_SIZE gives 10485760 bytes; a setting of plain digits gives the number it spells |
| Uploads.MaxFileSizeOfDecimal | src/app/api/tickets/anonymous/route.ts:13 | a limit written out in decimal is read back exactly |
| Uploads.Kept | src/app/api/tickets/anonymous/route.ts:105-112 | an entry survives the filter, once, exactly when it is a file no larger than the limit |
| Uploads.ValidFiles | src/app/api/tickets/anonymous/route.ts:104-112 | never more valid files than entries sent |
| Uploads.ValidFilesMultiplicity | src/app/api/tickets/anonymous/route.ts:104-112 | each file within MAX_FILE_SIZE survives as often as it was sent, and no other file survives |
| Uploads.ValidFilesCounts | src/app/api/tickets/anonymous/route.ts:104-112 | exactly the file entries no larger than MAX_FILE_SIZE survive, each as often as it was sent |
| Uploads.ValidFilesAppend | src/app/api/tickets/anonymous/route.ts:104-115 | the filter keeps the order of the form: filtering a concatenation is concatenating the filtered parts |
| Uploads.LimitIsInclusive | src/app/api/tickets/anonymous/route.ts:107 | a file exactly at the limit is kept, and one byte more is dropped |
| Uploads.SanitizeFileName | src/app/api/tickets/anonymous/route.ts:119 | the result holds only `[a-zA-Z0-9.-]` and '_' |
| Uploads.SanitizeChar | src/app/api/tickets/anonymous/route.ts:119 | a single safe character is kept; any other becomes one '_' per UTF-16 code unit, so two for a character outside the Basic Multilingual Plane |
| Uploads.SanitizeAppend | src/app/api/tickets/anonymous/route.ts:119 | the replacement works character by character: sanitising a concatenation is concatenating the sanitised parts |
| Uploads.SanitizedHasNoSlash | src/app/api/tickets/anonymous/route.ts:119 | a sanitised name has no '/' |
| Uploads.SanitizeKeepsLength | src/app/api/tickets/anonymous/route.ts:119 | sanitising keeps the length in UTF-16 code units |
| Uploads.SanitizeKeepsSafe | src/app/api/tickets/anonymous/route.ts:119 | a name made of allowed characters is left as it is |
| Uploads.SanitizeIdempotent | src/app/api/tickets/anonymous/route.ts:119 | sanitising twice gives what sanitising once gives |
| Uploads.SanitizePointwise | src/app/api/tickets/anonymous/route.ts:119 | on Basic Multilingual Plane text, each character is kept if allowed and becomes '_' otherwise |
| Uploads.StoredFileNameInjective | src/app/api/tickets/anonymous/route.ts:118-120 | a stored name `<timestamp>-<index>-<sanitised>` determines its timestamp, index and sanitised part |
| Uploads.DistinctIndicesDistinctPaths | src/app/api/tickets/anonymous/route.ts:117-131 | files with different indices get different `/uploads/<ticketId>/` paths, even with equal timestamps |
| Uploads.MimeOrDefault | src/app/api/tickets/anonymous/route.ts:133 | a non-empty MIME type is kept; an empty one becomes 'application/octet-stream' |
| Uploads.WrittenCount | src/app/api/tickets/anonymous/route.ts:137-145 | the successful writes never outnumber the valid files |
| Uploads.Records | src/app/api/tickets/anonymous/route.ts:114-145 | one attachment record per valid file whose write succeeded, each being that file's record at its index |
| Uploads.RecordsHaveDistinctPaths | src/app/api/tickets/anonymous/route.ts:115-131 | the records of one submission have pairwise distinct paths |
| Uploads.RecordsDescribeFiles | src/app/api/tickets/anonymous/route.ts:129-136 | each record belongs to the ticket and the uploader, and names a written file with its size and its MIME type or the default |
| Anonymous.FormPriority | src/app/api/tickets/anonymous/route.ts:48 | an empty priority field counts as absent |
| Anonymous.FindOrCreateGuest | src/app/api/tickets/anonymous/route.ts:51-76 | answers the id of a user holding the submitted email; a failed create stores nothing |
| Anonymous.GuestCreatedForNewEmail | src/app/api/tickets/anonymous/route.ts:56-66 | a new email appends exactly one active GUEST, not from Keycloak, and keeps the store valid |
| Anonymous.ExistingUserKeepsRole | src/app/api/tickets/anonymous/route.ts:68-76 | for a known email no role changes; only that user's name may change, and only when they are not a GUEST |
| Anonymous.FindOrCreateKeepsValid | src/app/api/tickets/anonymous/route.ts:51-76 | find-or-create keeps ids and emails unique |
| Anonymous.SubmitAnonymous | src/app/api/tickets/anonymous/route.ts:30-230 | 400 exactly for a form the schema rejects, storing nothing; a valid form succeeds exactly when the guest can be found or created, the ticket id is unused and, with files sent, the upload directory is ready, and gets 500 otherwise; a success stores one ticket under the new id, keeps every earlier attachment in place, and answers at most as many attachments as files were sent, all of them stored |
| Anonymous.SubmittedTicket | src/app/api/tickets/anonymous/route.ts:78-91 | the stored ticket is OPEN, unassigned and unresolved, with the submitted title, description and category; its priority is the submitted one, or MEDIUM when absent or empty; its creator holds the submitted email |
| Anonymous.SubmitKeepsRoles | src/app/api/tickets/anonymous/route.ts:51-76 | no submission changes any existing user's role |
| Anonymous.SubmittedAttachments | src/app/api/tickets/anonymous/route.ts:93-195 | `attachmentsCount` is the number of valid files written; the new attachments belong to the ticket, have distinct paths and non-empty MIME types |
| Anonymous.SubmitKeepsValid | src/app/api/tickets/anonymous/route.ts:51-91 | a submission keeps the store's uniqueness invariants |
| Stats.Filter | src/app/api/stats/route.ts:34-41 | a `where` count's tickets are exactly the ones that satisfy the condition, each as often as stored |
| Stats.FilterAppend | src/app/api/stats/route.ts:34-41 | counting keeps the stored order: filtering a concatenation is concatenating the filtered parts |
| Stats.FilterIdempotent | src/app/api/stats/route.ts:18 | filtering twice by the same condition is filtering once |
| Stats.StatusCountsPartition | src/app/api/stats/route.ts:34-39 | the five status counts add up to the total |
| Stats.PriorityCountsPartition | src/app/api/stats/route.ts:40-47 | the four priority counts add up to the total |
| Stats.GroupByPriority | src/app/api/stats/route.ts:43-47 | one row per priority that occurs, holding its ticket count |
| Stats.Reduce | src/app/api/stats/route.ts:79 | the keys are the rows' priorities, and each value is the count of a row with that key |
| Stats.ReduceLastWins | src/app/api/stats/route.ts:79 | a later row for the same priority overrides an earlier one |
| Stats.Histogram | src/app/api/stats/route.ts:43-47 | a priority is present exactly when some ticket has it, and maps to its count |
| Stats.HistogramTotalIsCount | src/app/api/stats/route.ts:43-47 | a histogram's values add up to the number of tickets it was built from |
| Stats.Scope | src/app/api/stats/route.ts:15-18 | an ADMIN sees every ticket; anyone else sees exactly the tickets they created, each as often as stored |
| Stats.AvgResolutionHours | src/app/api/stats/route.ts:125-135 | 0 when no RESOLVED ticket has a resolution time; otherwise the whole number of hours nearest the mean duration, with halves rounded up |
| Stats.UniformDurationsTotal | src/app/api/stats/route.ts:127-130 | equal durations sum to their count times that duration |
| Stats.RoundHalfUpExact | src/app/api/stats/route.ts:132 | rounding an exact whole quotient gives that quotient |
| Stats.AvgOfUniformDurations | src/app/api/stats/route.ts:126-132 | when every resolved ticket took the same whole number of hours, the average is that number |
| Stats.ComputeAdminStats | src/app/api/stats/route.ts:88-135 | the admin histograms add up to the total, the unassigned count and the assigned-to-me count; `avgResolutionTime` is 0 without RESOLVED tickets that have a resolution time, and otherwise their mean duration in whole hours, halves rounded up |
| Stats.GetStats | src/app/api/stats/route.ts:8-146 | 401 exactly without a session; each of the five status counts, the total and the CRITICAL and HIGH counts is the number of tickets in the caller's scope with that status or priority; the admin fields appear exactly for an ADMIN and are computed over all tickets |
| Stats.StatsCountsAddUp | src/app/api/stats/route.ts:34-47 | the status counts and the `myTickets` breakdown each add up to `totalTickets` |
| Stats.PriorityBreakdowns | src/app/api/stats/route.ts:43-82 | the `myTickets`, `open`, `inProgress` and `resolved` breakdowns send each priority present among the scoped tickets, the OPEN ones, the IN_PROGRESS ones and the RESOLVED-or-CLOSED ones to its count, and leave out absent ones |
| Stats.ResolvedOrClosedCount | src/app/api/stats/route.ts:60-64 | RESOLVED-or-CLOSED tickets number the RESOLVED count plus the CLOSED count |
| Stats.ResolvedBreakdownIncludesClosed | src/app/api/stats/route.ts:60-82 | the `resolved` breakdown adds up to RESOLVED plus CLOSED, while `resolvedTickets` counts RESOLVED only |
| Stats.NonAdminSeesOwnTicketsOnly | src/app/api/stats/route.ts:15-18 | a non-admin's statistics are the same when everyone else's tickets are removed |
| Stats.AdminAggregates | src/app/api/stats/route.ts:87-135 | unassigned counts unassigned tickets that are not CLOSED; myAssigned counts tickets assigned to the caller; the `all`, `unassigned` and `myAssigned` breakdowns send each priority present among those tickets to its count and leave out absent ones; `avgResolutionTime` is the rounded mean over all RESOLVED tickets with a resolution time |

## Left out

- Logging, Socket.IO events, email dispatch and the `ticketWithDetails` re-read are not modelled. On success they do not change the store or the response. Their failure paths are not modelled either: a failing re-read or an awaited email of POST /api/tickets answers 500 after the ticket is already stored.
- bcrypt, Zod's email regex, `createMagicLink`, the database's id and timestamp generation, `Date.now()` and file writing: they are foreign calls and enter as parameters.
- `mkdir` is a single `uploadDirReady` flag. Writes are modelled one after another, in index order, not concurrently. A failing attachment-record create, which would give 500 after the files were written, is not modelled.
- The model records the path `/uploads/<ticketId>/<name>`. The file itself is written under UPLOAD_DIR; the directory layout on disk is not modelled.
- Text.AsciiLower: `toLowerCase` is modelled for ASCII letters only, because Unicode case mapping is out of reach. Any non-ASCII role name fails to match the admin names either way.
- Stats.AvgResolutionHours: the mean is computed exactly on integer milliseconds rather than in floating point. Floating-point division could differ from it only when the total is so large that a quotient lying very near a half is not exactly representable.
- Auth.SignInCreatesUser: `isActive` for Keycloak-created users takes the column default defined in the Prisma schema, which this model does not read. The model stores `true`.
- Register.Register: the created user is stored with `isActive` true. The route sets no `isActive`, so the real value is the column default defined in the Prisma schema, which this model does not read.
- A request body that is not valid JSON or form data makes `req.json()` or `req.formData()` throw, and the handler answers 500 (src/app/api/auth/register/route.ts:16, src/app/api/tickets/route.ts:100, src/app/api/tickets/anonymous/route.ts:33). The model starts from the parsed fields.
- Uploads.MaxFileSize: a MAX_FILE_SIZE made of plain digits is read exactly, even beyond 2^53. Any other spelling (a sign, leading blanks, trailing junk, no digits) is handed to a `parseInt` parameter; a result of `NaN` is modelled as no limit, and `parseInt`'s rounding of huge values is not modelled.
- The TicketCategory enum is defined in the Prisma schema, which this model does not read, so its members are a `categories` parameter.
- Races between concurrent requests, and the ticket update and resolution lifecycle, are not modelled. The stored `resolvedAt` is taken as given.
- Admin user management and the Socket.IO room handlers lie outside this model.
- The `include`d relations in responses (creator, assignee, comment and attachment counts) are left out. They do not affect which tickets are returned or in what order.
- When several tickets share a `createdAt`, the database fixes no order among them. Tickets.SortNewestFirst promises only newest-first order and a permutation of the input.

=== FILE: anonymous.dfy ===
/**
 Anonymous ticket submission (POST /api/tickets/anonymous): validation of the
 form, find-or-create of a GUEST user by email, creation of the ticket with
 its defaults, and the attachments of the uploaded files.
 */
module Anonymous {
  import opened Types
  import opened Text
  import opened Tickets
  import opened Uploads

  /** The multipart form: the submitter, the ticket fields and the `files` entries. */
  datatype AnonymousForm = AnonymousForm(name: Field, email: Field, ticket: TicketBody, files: seq<FormEntry>)

  /** What the handler depends on besides the store: Zod's email check, the
      category enum's values, the MAX_FILE_SIZE setting and `parseInt` for
      spellings other than plain digits, the ids and timestamp
      the database assigns, whether the upload directory can be created, the
      clock reading per valid file, and `createMagicLink`. */
  datatype AnonymousEnv = AnonymousEnv(
    isEmail: string -> bool,
    categories: set<string>,
    maxFileSizeSetting: Option<string>,
    parseInt: string -> SizeLimit,
    newUserId: string,
    newTicketId: string,
    now: int,
    uploadDirReady: bool,
    stamp: nat -> nat,
    newAttachmentId: nat -> string,
    magicLink: string -> string)

  datatype AnonymousResponse = AnonymousResponse(ticketId: string, magicLink: string, attachmentsCount: nat)

  /** `priority ? priority : undefined`: an empty form value counts as absent. */
  function FormPriority(f: Field): (g: Field)
    ensures f == Text("") ==> g == Absent
    ensures f != Text("") ==> g == f
  {
    if f == Text("") then Absent else f
  }

  function TicketFields(form: AnonymousForm): TicketBody {
    form.ticket.(priority := FormPriority(form.ticket.priority))
  }

  /** `anonymousTicketSchema`: name at least 2 code units, a valid email, and
      the ticket schema (title 5..200, description at least 10, a category,
      an optional priority). */
  predicate ValidAnonymousForm(form: AnonymousForm, isEmail: string -> bool, categories: set<string>) {
    && form.name.Text? && Utf16Length(form.name.s) >= 2
    && form.email.Text? && isEmail(form.email.s)
    && ValidTicketBody(TicketFields(form), categories)
  }

  /** Looks the submitter up by email. A new email gets a new active GUEST
      that is not a Keycloak user; an existing non-GUEST whose name differs
      gets the submitted name; an existing GUEST is left alone. Answers the
      user's id; the create fails when the new id is taken. */
  function FindOrCreateGuest(users: seq<User>, name: string, email: string,
                             newId: string, now: int): (r: (seq<User>, Result<string, ApiError>))
    ensures r.1.Err? ==> r.0 == users && r.1.error == InternalError
    ensures r.1.Ok? ==> exists k :: 0 <= k < |r.0| && r.0[k].id == r.1.value && r.0[k].email == email
  {
    match FindUnique(users, ByEmail, email)
    case None =>
      if HasUserId(users, newId) then (users, Err(InternalError))
      else
        var guest := User(newId, email, name, GUEST, None, true, None, false, now);
        var users' := users + [guest];
        assert users'[|users|].id == newId;
        (users', Ok(newId))
    case Some(k) =>
      var u := users[k];
      if u.role != GUEST && u.name != name then
        var users' := users[k := u.(name := name)];
        assert users'[k].id == u.id && users'[k].email == email;
        (users', Ok(u.id))
      else (users, Ok(u.id))
  }

  /** A new email yields exactly one new user: a GUEST, active, not from Keycloak. */
  lemma GuestCreatedForNewEmail(users: seq<User>, name: string, email: string, newId: string, now: int)
    requires ValidUsers(users)
    requires !HasEmail(users, email) && !HasUserId(users, newId)
    ensures var (users', res) := FindOrCreateGuest(users, name, email, newId, now);
      && res == Ok(newId)
      && |users'| == |users| + 1 && users'[..|users|] == users
      && users'[|users|] == User(newId, email, name, GUEST, None, true, None, false, now)
      && ValidUsers(users')
  {
    assert FindUnique(users, ByEmail, email).None?;
    AppendKeepsValidUsers(users, User(newId, email, name, GUEST, None, true, None, false, now));
  }

  /** For a known email: no user's role changes, and only the matching user's
      name may change, and only if that user is not a GUEST. */
  lemma ExistingUserKeepsRole(users: seq<User>, name: string, email: string, newId: string, now: int, k: nat)
    requires UniqueEmails(users)
    requires k < |users| && users[k].email == email
    ensures var (users', res) := FindOrCreateGuest(users, name, email, newId, now);
      && res == Ok(users[k].id)
      && |users'| == |users|
      && (forall j :: 0 <= j < |users| && j != k ==> users'[j] == users[j])
      && users'[k] == users[k].(name := users'[k].name)
      && users'[k].name == (if users[k].role != GUEST then name else users[k].name)
  {
    var i := FindUnique(users, ByEmail, email);
    assert i == Some(k);
  }

  /** The find-or-create keeps the store's uniqueness constraints. */
  lemma FindOrCreateKeepsValid(users: seq<User>, name: string, email: string, newId: string, now: int)
    requires ValidUsers(users)
    ensures ValidUsers(FindOrCreateGuest(users, name, email, newId, now).0)
  {
    match FindUnique(users, ByEmail, email)
    case None =>
      if !HasUserId(users, newId) {
        GuestCreatedForNewEmail(users, name, email, newId, now);
      }
    case Some(k) =>
      ExistingUserKeepsRole(users, name, email, newId, now, k);
      var users' := FindOrCreateGuest(users, name, email, newId, now).0;
      assert forall j :: 0 <= j < |users| ==> users'[j].email == users[j].email && users'[j].id == users[j].id;
  }

  /** POST /api/tickets/anonymous. A failure after the user or the ticket was
      stored leaves them stored: the handler runs no transaction. */
  function SubmitAnonymous(st: Store, form: AnonymousForm, env: AnonymousEnv): (r: (Store, Result<AnonymousResponse, ApiError>))
    ensures !ValidAnonymousForm(form, env.isEmail, env.categories) ==> r == (st, Err(InvalidInput))
    ensures r.1 == Err(InvalidInput) <==> !ValidAnonymousForm(form, env.isEmail, env.categories)
    ensures r.1.Ok? <==>
      && ValidAnonymousForm(form, env.isEmail, env.categories)
      && (HasEmail(st.users, form.email.s) || !HasUserId(st.users, env.newUserId))
      && !HasTicketId(st.tickets, env.newTicketId)
      && (|form.files| == 0 || env.uploadDirReady)
    ensures r.1.Err? && ValidAnonymousForm(form, env.isEmail, env.categories) ==> r.1 == Err(InternalError)
    ensures r.1.Ok? ==> r.1.value.ticketId == env.newTicketId
    ensures r.1.Ok? ==> r.1.value.attachmentsCount <= |form.files|
    ensures r.1.Ok? ==> |r.0.attachments| == |st.attachments| + r.1.value.attachmentsCount
    ensures r.1.Ok? ==> r.0.attachments[..|st.attachments|] == st.attachments
    ensures r.1.Ok? ==> |r.0.tickets| == |st.tickets| + 1 && r.0.tickets[..|st.tickets|] == st.tickets
  {
    if !ValidAnonymousForm(form, env.isEmail, env.categories) then (st, Err(InvalidInput))
    else
      var data := ParseTicketBody(TicketFields(form), env.categories).value;
      var (users, found) := FindOrCreateGuest(st.users, form.name.s, form.email.s, env.newUserId, env.now);
      match found
      case Err(e) => (st, Err(e))
      case Ok(userId) =>
        var ticket := NewTicket(env.newTicketId, data, userId, env.now);
        match InsertTicket(st.tickets, ticket)
        case Err(e) => (st.(users := users), Err(e))
        case Ok(tickets) =>
          if |form.files| > 0 && !env.uploadDirReady then (Store(users, tickets, st.attachments), Err(InternalError))
          else
            var valid := ValidFiles(form.files, MaxFileSize(env.maxFileSizeSetting, env.parseInt));
            var ctx := UploadContext(ticket.id, userId, env.stamp, env.newAttachmentId);
            var records := Records(ctx, valid, 0);
            (Store(users, tickets, st.attachments + records),
             Ok(AnonymousResponse(ticket.id, env.magicLink(userId), |records|)))
  }

  /** A successful submission stores one ticket, OPEN, with the submitted
      priority or MEDIUM when it was absent or empty, created by the user
      that carries the submitted email. */
  lemma SubmittedTicket(st: Store, form: AnonymousForm, env: AnonymousEnv)
    requires SubmitAnonymous(st, form, env).1.Ok?
    ensures var (st', _) := SubmitAnonymous(st, form, env);
      var t := st'.tickets[|st.tickets|];
      && t.id == env.newTicketId && t.status == OPEN && t.assignedToId.None?
      && t.priority == (if FormPriority(form.ticket.priority).Absent? then MEDIUM
                        else ParsePriority(form.ticket.priority.s).value)
      && Text(t.title) == form.ticket.title && Text(t.description) == form.ticket.description
      && Text(t.category) == form.ticket.category && t.resolvedAt.None?
      && exists k :: 0 <= k < |st'.users| && st'.users[k].id == t.createdById &&
                     Text(st'.users[k].email) == form.email
  {
  }

  /** No submission changes any existing user's role, whatever its outcome. */
  lemma SubmitKeepsRoles(st: Store, form: AnonymousForm, env: AnonymousEnv)
    requires UniqueEmails(st.users)
    ensures var st' := SubmitAnonymous(st, form, env).0;
      |st'.users| >= |st.users| &&
      forall j :: 0 <= j < |st.users| ==> st'.users[j].role == st.users[j].role
  {
    if ValidAnonymousForm(form, env.isEmail, env.categories) {
      match FindUnique(st.users, ByEmail, form.email.s)
      case None =>
      case Some(k) =>
        ExistingUserKeepsRole(st.users, form.name.s, form.email.s, env.newUserId, env.now, k);
    }
  }

  /** The attachment count is the number of valid files whose write
      succeeded, and the new attachments have pairwise distinct paths. */
  lemma SubmittedAttachments(st: Store, form: AnonymousForm, env: AnonymousEnv)
    requires SubmitAnonymous(st, form, env).1.Ok?
    ensures var (st', res) := SubmitAnonymous(st, form, env);
      var added := st'.attachments[|st.attachments|..];
      && res.value.attachmentsCount == WrittenCount(ValidFiles(form.files, MaxFileSize(env.maxFileSizeSetting, env.parseInt)))
      && (forall k1, k2 :: 0 <= k1 < k2 < |added| ==> added[k1].filePath != added[k2].filePath)
      && (forall a :: a in added ==> a.ticketId == env.newTicketId && a.mimeType != "")
  {
    var (st', res) := SubmitAnonymous(st, form, env);
    var (users, found) := FindOrCreateGuest(st.users, form.name.s, form.email.s, env.newUserId, env.now);
    var ctx := UploadContext(env.newTicketId, found.value, env.stamp, env.newAttachmentId);
    var valid := ValidFiles(form.files, MaxFileSize(env.maxFileSizeSetting, env.parseInt));
    var added := st'.attachments[|st.attachments|..];
    assert added == Records(ctx, valid, 0);
    RecordsHaveDistinctPaths(ctx, valid, 0);
    forall a | a in added ensures a.ticketId == env.newTicketId && a.mimeType != "" {
      RecordsDescribeFiles(ctx, valid, a);
    }
  }

  /** A submission keeps the store's uniqueness constraints. */
  lemma SubmitKeepsValid(st: Store, form: AnonymousForm, env: AnonymousEnv)
    requires ValidStore(st)
    ensures ValidStore(SubmitAnonymous(st, form, env).0)
  {
    if ValidAnonymousForm(form, env.isEmail, env.categories) {
      FindOrCreateKeepsValid(st.users, form.name.s, form.email.s, env.newUserId, env.now);
      var (users, found) := FindOrCreateGuest(st.users, form.name.s, form.email.s, env.newUserId, env.now);
      if found.Ok? {
        var data := ParseTicketBody(TicketFields(form), env.categories).value;
        var ticket := NewTicket(env.newTicketId, data, found.value, env.now);
        if !HasTicketId(st.tickets, ticket.id) {
          InsertKeepsUniqueIds(st.tickets, ticket);
        }
      }
    }
  }
}

=== FILE: auth.dfy ===
/**
 The authentication rules: mapping a Keycloak profile to a user (role from
 the Keycloak role names), the credentials login gate, synchronising a
 Keycloak user into the store at sign-in, and copying user fields into the
 JWT and from there into the session.
 */
module Auth {
  import opened Types
  import opened Text

  /** The Keycloak OIDC profile fields the mapping reads. A missing role list
      (`realm_access?.roles` undefined) is `None`. */
  datatype KeycloakProfile = KeycloakProfile(
    sub: string,
    name: Option<string>,
    preferredUsername: Option<string>,
    email: Option<string>,
    realmRoles: Option<seq<string>>,
    clientRoles: Option<seq<string>>,
    directRoles: Option<seq<string>>)

  /** The user object handed to the sign-in and JWT callbacks, produced either
      by the Keycloak profile mapping or by the credentials check. */
  datatype AuthUser = AuthUser(
    id: string,
    email: Option<string>,
    name: Option<string>,
    role: Role,
    department: Option<string>,
    isKeycloakUser: bool)

  function OrEmpty(roles: Option<seq<string>>): seq<string> {
    match roles
    case None => []
    case Some(rs) => rs
  }

  /** Realm roles, then client roles, then direct roles. */
  function AllRoles(p: KeycloakProfile): seq<string> {
    OrEmpty(p.realmRoles) + OrEmpty(p.clientRoles) + OrEmpty(p.directRoles)
  }

  /** A role name that grants administration, compared case-insensitively. */
  predicate IsAdminRoleName(role: string) {
    var l := AsciiLower(role);
    l == "admin" || l == "it_admin" || l == "administrator"
  }

  /** `allRoles.some(...)`: does any listed role grant administration? */
  function AnyAdminRole(roles: seq<string>): (b: bool)
    ensures b <==> exists i :: 0 <= i < |roles| && IsAdminRoleName(roles[i])
  {
    if |roles| == 0 then false
    else if IsAdminRoleName(roles[0]) then true
    else
      var rest := AnyAdminRole(roles[1..]);
      assert rest <==> exists i :: 1 <= i < |roles| && IsAdminRoleName(roles[i]) by {
        if rest {
          var k :| 0 <= k < |roles[1..]| && IsAdminRoleName(roles[1..][k]);
          assert roles[k + 1] == roles[1..][k];
        }
        if exists i :: 1 <= i < |roles| && IsAdminRoleName(roles[i]) {
          var k :| 1 <= k < |roles| && IsAdminRoleName(roles[k]);
          assert roles[1..][k - 1] == roles[k];
        }
      }
      rest
  }

  /** The Keycloak provider's `profile` callback. */
  function MapProfile(p: KeycloakProfile): (u: AuthUser)
    ensures u.role == ADMIN <==> exists r :: r in AllRoles(p) && IsAdminRoleName(r)
    ensures u.role != GUEST
    ensures u.id == p.sub && u.email == p.email && u.isKeycloakUser
    ensures u.name == (if p.name.Some? then p.name else p.preferredUsername)
    ensures u.department.None?
  {
    var isAdmin := AnyAdminRole(AllRoles(p));
    AuthUser(
      p.sub,
      p.email,
      if p.name.Some? then p.name else p.preferredUsername,
      if isAdmin then ADMIN else USER,
      None,
      true)
  }

  /** The mapped role depends only on which role names occur, not on which of
      the three lists carries them or in what order. */
  lemma MapProfileRoleBySet(p: KeycloakProfile, q: KeycloakProfile)
    requires forall r :: r in AllRoles(p) <==> r in AllRoles(q)
    ensures MapProfile(p).role == MapProfile(q).role
  {
  }

  /** Moving role names between the realm, client and direct lists (any
      rearrangement of the combined list) leaves the mapped role unchanged. */
  lemma MapProfileRolePermutation(p: KeycloakProfile, q: KeycloakProfile)
    requires multiset(AllRoles(p)) == multiset(AllRoles(q))
    ensures MapProfile(p).role == MapProfile(q).role
  {
    forall r ensures r in AllRoles(p) <==> r in AllRoles(q) {
      assert r in AllRoles(p) <==> r in multiset(AllRoles(p));
      assert r in AllRoles(q) <==> r in multiset(AllRoles(q));
    }
    MapProfileRoleBySet(p, q);
  }

  /** The login form's fields; a missing field is `None`. */
  datatype Credentials = Credentials(email: Option<string>, password: Option<string>)

  /** The single failure the credentials provider reports. */
  datatype AuthFailure = InvalidCredentials

  /** JavaScript truthiness of an optional string: present and non-empty. */
  predicate Truthy(s: Option<string>) {
    s.Some? && s.value != ""
  }

  /** The user a credentials login may authenticate as: a stored, non-Keycloak
      user with a non-empty password hash that `passwordMatches` accepts. */
  predicate CanLogIn(u: User, password: string, passwordMatches: (string, string) -> bool) {
    Truthy(u.password) && !u.isKeycloakUser && passwordMatches(password, u.password.value)
  }

  function PublicFields(u: User): AuthUser {
    AuthUser(u.id, Some(u.email), Some(u.name), u.role, u.department, u.isKeycloakUser)
  }

  /** The credentials provider's `authorize`. `passwordMatches(plain, hash)`
      stands for bcrypt's comparison. */
  function Authorize(users: seq<User>, creds: Credentials,
                     passwordMatches: (string, string) -> bool): (r: Result<AuthUser, AuthFailure>)
    requires UniqueEmails(users)
    ensures r.Ok? <==>
      Truthy(creds.email) && Truthy(creds.password) &&
      exists i :: 0 <= i < |users| && users[i].email == creds.email.value &&
        CanLogIn(users[i], creds.password.value, passwordMatches)
    ensures r.Ok? ==>
      exists i :: 0 <= i < |users| && users[i].email == creds.email.value &&
        r.value == PublicFields(users[i])
  {
    if !Truthy(creds.email) || !Truthy(creds.password) then Err(InvalidCredentials)
    else match FindUnique(users, ByEmail, creds.email.value)
      case None => Err(InvalidCredentials)
      case Some(k) =>
        var u := users[k];
        if !CanLogIn(u, creds.password.value, passwordMatches) then Err(InvalidCredentials)
        else Ok(PublicFields(u))
  }

  /** A Keycloak user never passes the credentials path, whatever the password. */
  lemma KeycloakUserCannotUseCredentials(users: seq<User>, creds: Credentials,
                                         passwordMatches: (string, string) -> bool, i: nat)
    requires UniqueEmails(users)
    requires i < |users| && users[i].isKeycloakUser
    requires creds.email == Some(users[i].email)
    ensures Authorize(users, creds, passwordMatches).Err?
  {
  }

  /** The name stored for a new Keycloak user: `user.name || 'User'`. */
  function NameOrDefault(name: Option<string>): (n: string)
    ensures Truthy(name) ==> n == name.value
    ensures !Truthy(name) ==> n == "User"
  {
    if Truthy(name) then name.value else "User"
  }

  /** The `signIn` callback. For Keycloak sign-ins it creates the user under
      the Keycloak id or, for a known id, overwrites the stored role with the
      mapped one. A failing store call (the create needs an email that no
      other user has) makes it answer false. Other providers always pass. */
  function SignIn(users: seq<User>, provider: string, u: AuthUser, now: int): (r: (seq<User>, bool))
    ensures provider != "keycloak" ==> r == (users, true)
    ensures !r.1 ==> r.0 == users
  {
    if provider != "keycloak" then (users, true)
    else match FindUnique(users, ById, u.id)
      case None =>
        if u.email.None? || HasEmail(users, u.email.value) then (users, false)
        else
          var created := User(u.id, u.email.value, NameOrDefault(u.name), u.role,
                              None, true, None, true, now);
          (users + [created], true)
      case Some(k) =>
        if users[k].role != u.role then (users[k := users[k].(role := u.role)], true)
        else (users, true)
  }

  /** A first Keycloak sign-in creates exactly one user: the Keycloak id, the
      mapped role, the Keycloak flag, and 'User' when no name came along. */
  lemma SignInCreatesUser(users: seq<User>, u: AuthUser, now: int)
    requires ValidUsers(users)
    requires !HasUserId(users, u.id)
    requires u.email.Some? && !HasEmail(users, u.email.value)
    ensures var (users', ok) := SignIn(users, "keycloak", u, now);
      ok && |users'| == |users| + 1 && users'[..|users|] == users &&
      users'[|users|].id == u.id && users'[|users|].email == u.email.value &&
      users'[|users|].role == u.role && users'[|users|].isKeycloakUser &&
      users'[|users|].name == NameOrDefault(u.name) && users'[|users|].password.None? &&
      ValidUsers(users')
  {
    var created := User(u.id, u.email.value, NameOrDefault(u.name), u.role, None, true, None, true, now);
    AppendKeepsValidUsers(users, created);
  }

  /** A repeated Keycloak sign-in leaves the stored role equal to the mapped
      role and touches nothing else. */
  lemma SignInSyncsRole(users: seq<User>, u: AuthUser, now: int, k: nat)
    requires ValidUsers(users)
    requires k < |users| && users[k].id == u.id
    ensures var (users', ok) := SignIn(users, "keycloak", u, now);
      ok && |users'| == |users| && users'[k] == users[k].(role := u.role) &&
      (forall j :: 0 <= j < |users| && j != k ==> users'[j] == users[j]) &&
      ValidUsers(users')
  {
    var i := FindUnique(users, ById, u.id);
    assert i == Some(k);
  }

  /** A Keycloak sign-in is refused exactly when the user had to be created
      and the create could not succeed (no email, or the email is taken). */
  lemma SignInFailsOnlyOnCreate(users: seq<User>, u: AuthUser, now: int)
    ensures !SignIn(users, "keycloak", u, now).1 <==>
      !HasUserId(users, u.id) && (u.email.None? || HasEmail(users, u.email.value))
  {
  }

  /** The JWT fields the `jwt` callback maintains (undefined is `None`). */
  datatype Token = Token(
    id: Option<string>,
    role: Option<Role>,
    isKeycloakUser: Option<bool>,
    department: Option<string>)

  datatype SessionUser = SessionUser(
    name: Option<string>,
    email: Option<string>,
    id: Option<string>,
    role: Option<Role>,
    isKeycloakUser: Option<bool>,
    department: Option<string>)

  /** The `jwt` callback: on sign-in (a user is present) it copies the user's
      id, role, Keycloak flag and department into the token. */
  function Jwt(token: Token, user: Option<AuthUser>): (t: Token)
    ensures user.None? ==> t == token
    ensures user.Some? ==>
      t.id == Some(user.value.id) && t.role == Some(user.value.role) &&
      t.isKeycloakUser == Some(user.value.isKeycloakUser) && t.department == user.value.department
  {
    match user
    case None => token
    case Some(u) => Token(Some(u.id), Some(u.role), Some(u.isKeycloakUser), u.department)
  }

  /** The `session` callback: copies the token fields onto the session user, if any. */
  function Session(session: Option<SessionUser>, token: Token): (s: Option<SessionUser>)
    ensures s.Some? <==> session.Some?
    ensures s.Some? ==>
      s.value.name == session.value.name && s.value.email == session.value.email &&
      s.value.id == token.id && s.value.role == token.role &&
      s.value.isKeycloakUser == token.isKeycloakUser && s.value.department == token.department
  {
    match session
    case None => None
    case Some(su) =>
      Some(su.(id := token.id, role := token.role, isKeycloakUser := token.isKeycloakUser,
               department := token.department))
  }

  /** Signing in and then building the session carries the user's id, role,
      Keycloak flag and department into the session unchanged. */
  lemma SessionCarriesUser(token: Token, u: AuthUser, su: SessionUser)
    ensures var s := Session(Some(su), Jwt(token, Some(u)));
      s == Some(su.(id := Some(u.id), role := Some(u.role),
                    isKeycloakUser := Some(u.isKeycloakUser), department := u.department))
  {
  }
}

=== FILE: register.dfy ===
/**
 Account registration (POST /api/auth/register): schema validation, the
 duplicate-email check, and creation of a USER with a hashed password.
 */
module Register {
  import opened Types
  import opened Text

  datatype RegisterBody = RegisterBody(email: Field, password: Field, name: Field, department: Field)

  /** The body after `registerSchema.parse`. */
  datatype RegisterData = RegisterData(email: string, password: string, name: string, department: Option<string>)

  /** The user as the response selects it: no password field. */
  datatype PublicUser = PublicUser(
    id: string,
    email: string,
    name: string,
    role: Role,
    department: Option<string>,
    createdAt: int)

  /** The schema: email valid, password at least 8 and name at least 2 code
      units, department an optional string. `isEmail` stands for Zod's email check. */
  predicate ValidRegisterBody(b: RegisterBody, isEmail: string -> bool) {
    && b.email.Text? && isEmail(b.email.s)
    && b.password.Text? && Utf16Length(b.password.s) >= 8
    && b.name.Text? && Utf16Length(b.name.s) >= 2
    && !b.department.NotText?
  }

  function ParseRegisterBody(b: RegisterBody, isEmail: string -> bool): (r: Result<RegisterData, ApiError>)
    ensures r.Ok? <==> ValidRegisterBody(b, isEmail)
    ensures r.Err? ==> r.error == InvalidInput
    ensures r.Ok? ==>
      Text(r.value.email) == b.email && Text(r.value.password) == b.password &&
      Text(r.value.name) == b.name &&
      (r.value.department.None? <==> b.department.Absent?) &&
      (r.value.department.Some? ==> b.department == Text(r.value.department.value))
  {
    if !ValidRegisterBody(b, isEmail) then Err(InvalidInput)
    else Ok(RegisterData(b.email.s, b.password.s, b.name.s,
                         if b.department.Text? then Some(b.department.s) else None))
  }

  /** The handler. `hash` stands for bcrypt.hash, `newId` for the id the
      database assigns and `now` for its creation timestamp; an id already in
      use makes the create fail. */
  function Register(users: seq<User>, body: RegisterBody, isEmail: string -> bool,
                    hash: string -> string, newId: string, now: int): (r: (seq<User>, Result<PublicUser, ApiError>))
    ensures r.1.Err? ==> r.0 == users
    ensures r.1.Ok? ==> ValidRegisterBody(body, isEmail) && !HasEmail(users, body.email.s)
  {
    match ParseRegisterBody(body, isEmail)
    case Err(e) => (users, Err(e))
    case Ok(d) =>
      if FindUnique(users, ByEmail, d.email).Some? then (users, Err(UserAlreadyExists))
      else if HasUserId(users, newId) then (users, Err(InternalError))
      else
        var u := User(newId, d.email, d.name, USER, d.department, true, Some(hash(d.password)), false, now);
        (users + [u], Ok(PublicUser(u.id, u.email, u.name, u.role, u.department, u.createdAt)))
  }

  /** Invalid input is answered with 400 'Invalid input' and stores nothing. */
  lemma RegisterRejectsInvalidInput(users: seq<User>, body: RegisterBody, isEmail: string -> bool,
                                    hash: string -> string, newId: string, now: int)
    requires !ValidRegisterBody(body, isEmail)
    ensures Register(users, body, isEmail, hash, newId, now) == (users, Err(InvalidInput))
  {
  }

  /** A taken email is answered with 'User already exists' and stores nothing. */
  lemma RegisterRejectsDuplicate(users: seq<User>, body: RegisterBody, isEmail: string -> bool,
                                 hash: string -> string, newId: string, now: int)
    requires ValidRegisterBody(body, isEmail) && HasEmail(users, body.email.s)
    ensures Register(users, body, isEmail, hash, newId, now) == (users, Err(UserAlreadyExists))
  {
    assert FindUnique(users, ByEmail, body.email.s).Some?;
  }

  /** A successful registration appends exactly one USER, not a Keycloak user,
      whose stored password is the hash of the submitted one, leaves every
      other user as it was, and afterwards exactly one user has that email. */
  lemma RegisterSuccess(users: seq<User>, body: RegisterBody, isEmail: string -> bool,
                        hash: string -> string, newId: string, now: int)
    requires ValidUsers(users)
    requires ValidRegisterBody(body, isEmail) && !HasEmail(users, body.email.s)
    requires !HasUserId(users, newId)
    ensures var (users', res) := Register(users, body, isEmail, hash, newId, now);
      && res.Ok?
      && |users'| == |users| + 1 && users'[..|users|] == users
      && var u := users'[|users|];
      && u.id == newId && u.email == body.email.s && u.name == body.name.s
      && u.role == USER && !u.isKeycloakUser
      && (u.department.None? <==> body.department.Absent?)
      && (u.department.Some? ==> body.department == Text(u.department.value))
      && u.password == Some(hash(body.password.s))
      && res.value == PublicUser(u.id, u.email, u.name, u.role, u.department, u.createdAt)
      && ValidUsers(users')
      && EmailCount(users', body.email.s) == 1
  {
    var (users', res) := Register(users, body, isEmail, hash, newId, now);
    assert FindUnique(users, ByEmail, body.email.s).None?;
    AppendKeepsValidUsers(users, users'[|users|]);
    assert users' == users + [users'[|users|]];
    EmailCountUnique(users', body.email.s);
    assert users'[|users|].email == body.email.s;
  }

  /** Registration keeps the store's uniqueness constraints, whatever the outcome. */
  lemma RegisterKeepsValid(users: seq<User>, body: RegisterBody, isEmail: string -> bool,
                           hash: string -> string, newId: string, now: int)
    requires ValidUsers(users)
    ensures ValidUsers(Register(users, body, isEmail, hash, newId, now).0)
  {
    var (users', res) := Register(users, body, isEmail, hash, newId, now);
    if res.Ok? {
      RegisterSuccess(users, body, isEmail, hash, newId, now);
    }
  }
}

=== FILE: seed_admin.dfy ===
/**
 Start-up seeding of a default administrator: when no ADMIN exists, one is
 created from the environment's settings or their defaults. Any failure is
 logged and swallowed.
 */
module SeedAdmin {
  import opened Types

  const DefaultAdminEmail: string := "admin@informejo.local"
  const DefaultAdminPassword: string := "ChangeMe123!"
  const DefaultAdminName: string := "System Administrator"

  /** DEFAULT_ADMIN_EMAIL, DEFAULT_ADMIN_PASSWORD and DEFAULT_ADMIN_NAME; unset is `None`. */
  datatype SeedEnv = SeedEnv(email: Option<string>, password: Option<string>, name: Option<string>)

  datatype SeedOutcome = AdminAlreadyExists | AdminCreated | SeedFailed

  /** `value || fallback`: an unset or empty setting takes the default. */
  function OrDefault(setting: Option<string>, fallback: string): (v: string)
    ensures setting.Some? && setting.value != "" ==> v == setting.value
    ensures setting.None? || setting.value == "" ==> v == fallback
  {
    if setting.Some? && setting.value != "" then setting.value else fallback
  }

  predicate AdminExists(users: seq<User>) {
    exists i :: 0 <= i < |users| && users[i].role == ADMIN
  }

  /** `seedDefaultAdmin`. `hash` stands for bcrypt.hash and `newId`/`now` for
      the id and timestamp the database assigns. The create fails, and the
      failure is swallowed, when the email or the id is already taken. */
  function SeedDefaultAdmin(users: seq<User>, env: SeedEnv, hash: string -> string,
                            newId: string, now: int): (r: (seq<User>, SeedOutcome))
    ensures r.1 != AdminCreated ==> r.0 == users
    ensures r.1 == AdminAlreadyExists <==> AdminExists(users)
    ensures r.1 == SeedFailed <==>
      !AdminExists(users) && (HasEmail(users, OrDefault(env.email, DefaultAdminEmail)) || HasUserId(users, newId))
    ensures r.1 == AdminCreated ==>
      |r.0| == |users| + 1 && r.0[..|users|] == users &&
      r.0[|users|].id == newId && r.0[|users|].role == ADMIN && r.0[|users|].isActive && !r.0[|users|].isKeycloakUser &&
      r.0[|users|].email == OrDefault(env.email, DefaultAdminEmail) &&
      r.0[|users|].name == OrDefault(env.name, DefaultAdminName) &&
      r.0[|users|].password == Some(hash(OrDefault(env.password, DefaultAdminPassword)))
  {
    if exists i :: 0 <= i < |users| && users[i].role == ADMIN then (users, AdminAlreadyExists)
    else
      var email := OrDefault(env.email, DefaultAdminEmail);
      var name := OrDefault(env.name, DefaultAdminName);
      var password := OrDefault(env.password, DefaultAdminPassword);
      if HasEmail(users, email) || HasUserId(users, newId) then (users, SeedFailed)
      else
        var admin := User(newId, email, name, ADMIN, None, true, Some(hash(password)), false, now);
        (users + [admin], AdminCreated)
  }

  /** Seeding twice yields the store seeding once yields, whatever the second
      run's id and timestamp (given the database hands the first run an unused id). */
  lemma SeedIdempotent(users: seq<User>, env: SeedEnv, hash: string -> string,
                       id1: string, now1: int, id2: string, now2: int)
    requires !HasUserId(users, id1)
    ensures var once := SeedDefaultAdmin(users, env, hash, id1, now1).0;
      SeedDefaultAdmin(once, env, hash, id2, now2).0 == once
  {
    var (once, outcome) := SeedDefaultAdmin(users, env, hash, id1, now1);
    if outcome == AdminCreated {
      SeedEstablishesAdmin(users, env, hash, id1, now1);
      assert SeedDefaultAdmin(once, env, hash, id2, now2).1 == AdminAlreadyExists;
    }
  }

  /** Unless seeding failed, an ADMIN exists afterwards. */
  lemma SeedEstablishesAdmin(users: seq<User>, env: SeedEnv, hash: string -> string, newId: string, now: int)
    requires SeedDefaultAdmin(users, env, hash, newId, now).1 != SeedFailed
    ensures AdminExists(SeedDefaultAdmin(users, env, hash, newId, now).0)
  {
    var (users', outcome) := SeedDefaultAdmin(users, env, hash, newId, now);
    if outcome == AdminCreated {
      assert users'[|users|].role == ADMIN;
    }
  }

  /** An existing non-admin holding the default email makes the create
      conflict; the failure is swallowed and the store stays as it was. */
  lemma SeedConflictLeavesStore(users: seq<User>, hash: string -> string, newId: string, now: int, k: nat)
    requires !AdminExists(users)
    requires k < |users| && users[k].email == DefaultAdminEmail
    ensures SeedDefaultAdmin(users, SeedEnv(None, None, None), hash, newId, now) == (users, SeedFailed)
  {
  }

  /** Seeding keeps the store's uniqueness constraints. */
  lemma SeedKeepsValid(users: seq<User>, env: SeedEnv, hash: string -> string, newId: string, now: int)
    requires ValidUsers(users)
    ensures ValidUsers(SeedDefaultAdmin(users, env, hash, newId, now).0)
  {
    var (users', outcome) := SeedDefaultAdmin(users, env, hash, newId, now);
    if outcome == AdminCreated {
      AppendKeepsValidUsers(users, users'[|users|]);
      assert users' == users + [users'[|users|]];
    }
  }
}

=== FILE: stats.dfy ===
/**
 Dashboard statistics (GET /api/stats): per-status and per-priority counts
 over the caller's tickets (every ticket for an ADMIN, their own otherwise),
 priority histograms built by reducing `groupBy` rows into an object, and
 the ADMIN-only aggregates including the mean resolution time in hours.
 */
module Stats {
  import opened Types

  const MillisPerHour: nat := 3600000

  /** The tickets a `where` condition selects, in stored order: each ticket
      that satisfies `p` as often as it is stored, the others not at all. */
  function Filter(ts: seq<Ticket>, p: Ticket -> bool): (r: seq<Ticket>)
    ensures |r| <= |ts|
    ensures forall t :: t in r <==> t in ts && p(t)
    ensures forall t :: multiset(r)[t] == if p(t) then multiset(ts)[t] else 0
  {
    if |ts| == 0 then []
    else
      var rest := Filter(ts[1..], p);
      assert ts == [ts[0]] + ts[1..];
      assert multiset(ts) == multiset{ts[0]} + multiset(ts[1..]);
      if p(ts[0]) then [ts[0]] + rest else rest
  }

  /** Filtering keeps the stored order: it distributes over concatenation. */
  lemma {:induction false} FilterAppend(a: seq<Ticket>, b: seq<Ticket>, p: Ticket -> bool)
    ensures Filter(a + b, p) == Filter(a, p) + Filter(b, p)
  {
    if |a| > 0 {
      assert (a + b)[1..] == a[1..] + b;
      FilterAppend(a[1..], b, p);
    } else {
      assert a + b == b;
    }
  }

  lemma {:induction false} FilterIdempotent(ts: seq<Ticket>, p: Ticket -> bool)
    ensures Filter(Filter(ts, p), p) == Filter(ts, p)
  {
    if |ts| > 0 {
      FilterIdempotent(ts[1..], p);
      if p(ts[0]) {
        var r := Filter(ts, p);
        assert r[0] == ts[0] && r[1..] == Filter(ts[1..], p);
      }
    }
  }

  function HasStatus(s: Status): Ticket -> bool {
    (t: Ticket) => t.status == s
  }

  function HasPriority(p: Priority): Ticket -> bool {
    (t: Ticket) => t.priority == p
  }

  function CreatedBy(id: string): Ticket -> bool {
    (t: Ticket) => t.createdById == id
  }

  function AssignedTo(id: string): Ticket -> bool {
    (t: Ticket) => t.assignedToId == Some(id)
  }

  /** `status: { in: [RESOLVED, CLOSED] }`. */
  function ResolvedOrClosed(): Ticket -> bool {
    (t: Ticket) => t.status == RESOLVED || t.status == CLOSED
  }

  /** `assignedToId: null, status: { not: CLOSED }`. */
  function UnassignedOpen(): Ticket -> bool {
    (t: Ticket) => t.assignedToId.None? && t.status != CLOSED
  }

  function CountStatus(ts: seq<Ticket>, s: Status): nat {
    |Filter(ts, HasStatus(s))|
  }

  function CountPriority(ts: seq<Ticket>, p: Priority): nat {
    |Filter(ts, HasPriority(p))|
  }

  /** The count of a non-empty sequence: its first ticket, then the rest. */
  lemma CountStep(ts: seq<Ticket>, p: Ticket -> bool)
    requires |ts| > 0
    ensures |Filter(ts, p)| == (if p(ts[0]) then 1 else 0) + |Filter(ts[1..], p)|
  {
  }

  /** Every ticket has exactly one status, so the five status counts add up
      to the number of tickets. */
  lemma {:induction false} StatusCountsPartition(ts: seq<Ticket>)
    ensures CountStatus(ts, OPEN) + CountStatus(ts, IN_PROGRESS) + CountStatus(ts, WAITING) +
            CountStatus(ts, RESOLVED) + CountStatus(ts, CLOSED) == |ts|
  {
    if |ts| > 0 {
      StatusCountsPartition(ts[1..]);
      CountStep(ts, HasStatus(OPEN));
      CountStep(ts, HasStatus(IN_PROGRESS));
      CountStep(ts, HasStatus(WAITING));
      CountStep(ts, HasStatus(RESOLVED));
      CountStep(ts, HasStatus(CLOSED));
    }
  }

  /** Every ticket has exactly one priority, so the four priority counts add
      up to the number of tickets. */
  lemma {:induction false} PriorityCountsPartition(ts: seq<Ticket>)
    ensures CountPriority(ts, LOW) + CountPriority(ts, MEDIUM) + CountPriority(ts, HIGH) +
            CountPriority(ts, CRITICAL) == |ts|
  {
    if |ts| > 0 {
      PriorityCountsPartition(ts[1..]);
      CountStep(ts, HasPriority(LOW));
      CountStep(ts, HasPriority(MEDIUM));
      CountStep(ts, HasPriority(HIGH));
      CountStep(ts, HasPriority(CRITICAL));
    }
  }

  /** The `groupBy` row of priority `p`, if any ticket has it. */
  function Row(ts: seq<Ticket>, p: Priority): (r: seq<(Priority, nat)>)
    ensures forall x :: x in r <==> x == (p, CountPriority(ts, p)) && x.1 > 0
  {
    if CountPriority(ts, p) > 0 then [(p, CountPriority(ts, p))] else []
  }

  /** The rows of `groupBy({ by: ['priority'], _count: true })`: one row per
      priority that occurs, with its number of tickets. */
  function GroupByPriority(ts: seq<Ticket>): (rows: seq<(Priority, nat)>)
    ensures forall x :: x in rows <==> x.1 == CountPriority(ts, x.0) > 0
  {
    Row(ts, LOW) + Row(ts, MEDIUM) + Row(ts, HIGH) + Row(ts, CRITICAL)
  }

  /** `rows.reduce((acc, item) => ({ ...acc, [item.priority]: item._count }), {})`:
      the keys are the rows' priorities and each value is the count of a row
      with that key (the last such row, as later spreads override earlier ones). */
  function Reduce(rows: seq<(Priority, nat)>): (m: map<Priority, nat>)
    ensures forall p :: p in m <==> exists i :: 0 <= i < |rows| && rows[i].0 == p
    ensures forall p :: p in m ==> (p, m[p]) in rows
  {
    if |rows| == 0 then map[]
    else
      var n := |rows| - 1;
      var init := rows[..n];
      var acc := Reduce(init);
      assert forall i :: 0 <= i < n ==> init[i] == rows[i];
      assert forall x :: x in init ==> x in rows;
      acc[rows[n].0 := rows[n].1]
  }

  /** A later row overrides an earlier one with the same priority. */
  lemma {:induction false} ReduceLastWins(rows: seq<(Priority, nat)>, i: nat)
    requires i < |rows|
    requires forall j :: i < j < |rows| ==> rows[j].0 != rows[i].0
    ensures rows[i].0 in Reduce(rows) && Reduce(rows)[rows[i].0] == rows[i].1
  {
    var n := |rows| - 1;
    if i < n {
      var init := rows[..n];
      assert init[i] == rows[i];
      assert rows[n].0 != rows[i].0;
      forall j | i < j < |init| ensures init[j].0 != init[i].0 {
        assert init[j] == rows[j];
      }
      ReduceLastWins(init, i);
    }
  }

  /** A priority histogram: priority name to ticket count, zero counts left out. */
  function Histogram(ts: seq<Ticket>): (h: map<Priority, nat>)
    ensures forall p :: p in h <==> CountPriority(ts, p) > 0
    ensures forall p :: p in h ==> h[p] == CountPriority(ts, p)
  {
    var rows := GroupByPriority(ts);
    var h := Reduce(rows);
    assert forall p :: CountPriority(ts, p) > 0 ==> p in h by {
      forall p | CountPriority(ts, p) > 0 ensures p in h {
        var x := (p, CountPriority(ts, p));
        assert x in rows;
        var i :| 0 <= i < |rows| && rows[i] == x;
        assert rows[i].0 == p;
      }
    }
    assert forall p :: p in h ==> h[p] == CountPriority(ts, p) by {
      forall p | p in h ensures h[p] == CountPriority(ts, p) {
        assert (p, h[p]) in rows;
      }
    }
    h
  }

  function CountIn(h: map<Priority, nat>, p: Priority): nat {
    if p in h then h[p] else 0
  }

  function HistogramTotal(h: map<Priority, nat>): nat {
    CountIn(h, LOW) + CountIn(h, MEDIUM) + CountIn(h, HIGH) + CountIn(h, CRITICAL)
  }

  /** The values of a histogram add up to the number of tickets it was built from. */
  lemma HistogramTotalIsCount(ts: seq<Ticket>)
    ensures HistogramTotal(Histogram(ts)) == |ts|
  {
    PriorityCountsPartition(ts);
    var h := Histogram(ts);
    assert CountIn(h, LOW) == CountPriority(ts, LOW);
    assert CountIn(h, MEDIUM) == CountPriority(ts, MEDIUM);
    assert CountIn(h, HIGH) == CountPriority(ts, HIGH);
    assert CountIn(h, CRITICAL) == CountPriority(ts, CRITICAL);
  }

  datatype Breakdown = Breakdown(
    myTickets: map<Priority, nat>,
    open: map<Priority, nat>,
    inProgress: map<Priority, nat>,
    resolved: map<Priority, nat>)

  datatype AdminStats = AdminStats(
    unassignedTickets: nat,
    myAssignedTickets: nat,
    avgResolutionTime: int,
    all: map<Priority, nat>,
    unassigned: map<Priority, nat>,
    myAssigned: map<Priority, nat>)

  datatype DashboardStats = DashboardStats(
    totalTickets: nat,
    openTickets: nat,
    inProgressTickets: nat,
    waitingTickets: nat,
    resolvedTickets: nat,
    closedTickets: nat,
    criticalTickets: nat,
    highPriorityTickets: nat,
    priorityBreakdown: Breakdown,
    admin: Option<AdminStats>)

  /** `where`: every ticket for an ADMIN, the caller's own tickets otherwise. */
  function Scope(ts: seq<Ticket>, c: Caller): (r: seq<Ticket>)
    ensures c.role == ADMIN ==> r == ts
    ensures c.role != ADMIN ==> forall t :: t in r <==> t in ts && t.createdById == c.id
    ensures forall t :: multiset(r)[t] == if c.role == ADMIN || t.createdById == c.id then multiset(ts)[t] else 0
  {
    if c.role == ADMIN then ts else Filter(ts, CreatedBy(c.id))
  }

  /** RESOLVED tickets with a resolution time. */
  function ResolvedWithTime(): Ticket -> bool {
    (t: Ticket) => t.status == RESOLVED && t.resolvedAt.Some?
  }

  /** Sum of `resolvedAt - createdAt` in milliseconds over tickets that have a resolution time. */
  function TotalResolutionMillis(ts: seq<Ticket>): int {
    if |ts| == 0 then 0
    else (if ts[0].resolvedAt.Some? then ts[0].resolvedAt.value - ts[0].createdAt else 0) +
         TotalResolutionMillis(ts[1..])
  }

  /** `h` is 0 for no resolved tickets, and otherwise the mean resolution
      time of `rs` in whole hours, halves rounded up. */
  predicate MeanHours(h: int, rs: seq<Ticket>) {
    && (|rs| == 0 ==> h == 0)
    && (|rs| > 0 ==> RoundsTo(h, TotalResolutionMillis(rs), |rs| * MillisPerHour))
  }

  /** `Math.round(total / n / 3600000)`, or 0 when no RESOLVED ticket has a
      resolution time: the whole number of hours nearest to the mean. */
  function AvgResolutionHours(ts: seq<Ticket>): (h: int)
    ensures MeanHours(h, Filter(ts, ResolvedWithTime()))
  {
    var rs := Filter(ts, ResolvedWithTime());
    if |rs| == 0 then 0 else RoundHalfUp(TotalResolutionMillis(rs), |rs| * MillisPerHour)
  }

  lemma {:induction false} UniformDurationsTotal(rs: seq<Ticket>, hours: int)
    requires forall t :: t in rs ==> t.resolvedAt.Some? && t.resolvedAt.value - t.createdAt == hours * MillisPerHour
    ensures TotalResolutionMillis(rs) == |rs| * (hours * MillisPerHour)
  {
    if |rs| > 0 {
      var k := hours * MillisPerHour;
      assert rs[0] in rs;
      assert forall t :: t in rs[1..] ==> t in rs;
      UniformDurationsTotal(rs[1..], hours);
      assert TotalResolutionMillis(rs) == k + (|rs| - 1) * k;
      MulSucc(|rs| - 1, k);
    }
  }

  lemma MulSucc(n: int, k: int)
    ensures (n + 1) * k == k + n * k
  {
  }

  /** Rounding an exact whole quotient gives that quotient. */
  lemma RoundHalfUpExact(q: int, d: int)
    requires d > 0
    ensures RoundHalfUp(q * d, d) == q
  {
    var r := RoundHalfUp(q * d, d);
    assert RoundsTo(r, q * d, d);
    assert 2 * d * r <= 2 * d * q + d < 2 * d * (r + 1);
    if r < q {
      MulMonotone(2 * d, r + 1, q);
    } else if r > q {
      MulMonotone(2 * d, q + 1, r);
    }
  }

  lemma MulMonotone(d: int, a: int, b: int)
    requires d > 0 && a <= b
    ensures d * a <= d * b
  {
  }

  lemma MulRearrange(a: int, b: int, c: int)
    ensures a * (b * c) == b * (a * c)
  {
  }

  /** When every resolved ticket took the same whole number of hours, the mean is that number. */
  lemma AvgOfUniformDurations(ts: seq<Ticket>, hours: int)
    requires exists t :: t in ts && ResolvedWithTime()(t)
    requires forall t :: t in ts && ResolvedWithTime()(t) ==> t.resolvedAt.value - t.createdAt == hours * MillisPerHour
    ensures AvgResolutionHours(ts) == hours
  {
    var rs := Filter(ts, ResolvedWithTime());
    var t :| t in ts && ResolvedWithTime()(t);
    assert t in rs;
    forall u | u in rs ensures u.resolvedAt.Some? && u.resolvedAt.value - u.createdAt == hours * MillisPerHour {
      assert u in ts && ResolvedWithTime()(u);
    }
    UniformDurationsTotal(rs, hours);
    var n := |rs|;
    var d := n * MillisPerHour;
    MulRearrange(n, hours, MillisPerHour);
    RoundHalfUpExact(hours, d);
  }

  /** The ADMIN-only aggregates; each histogram adds up to the count it refines. */
  function ComputeAdminStats(ts: seq<Ticket>, callerId: string): (a: AdminStats)
    ensures HistogramTotal(a.all) == |ts|
    ensures HistogramTotal(a.unassigned) == a.unassignedTickets
    ensures HistogramTotal(a.myAssigned) == a.myAssignedTickets
    ensures MeanHours(a.avgResolutionTime, Filter(ts, ResolvedWithTime()))
  {
    var unassigned := Filter(ts, UnassignedOpen());
    var mine := Filter(ts, AssignedTo(callerId));
    HistogramTotalIsCount(ts);
    HistogramTotalIsCount(unassigned);
    HistogramTotalIsCount(mine);
    var avg := AvgResolutionHours(ts);
    AdminStats(|unassigned|, |mine|, avg, Histogram(ts), Histogram(unassigned), Histogram(mine))
  }

  /** GET /api/stats. */
  function GetStats(ts: seq<Ticket>, caller: Option<Caller>): (r: Result<DashboardStats, ApiError>)
    ensures caller.None? <==> r == Err(Unauthorized)
    ensures r.Ok? ==> var s := r.value; var scope := Scope(ts, caller.value);
      && s.totalTickets == |scope|
      && s.openTickets == CountStatus(scope, OPEN)
      && s.inProgressTickets == CountStatus(scope, IN_PROGRESS)
      && s.waitingTickets == CountStatus(scope, WAITING)
      && s.resolvedTickets == CountStatus(scope, RESOLVED)
      && s.closedTickets == CountStatus(scope, CLOSED)
      && s.criticalTickets == CountPriority(scope, CRITICAL)
      && s.highPriorityTickets == CountPriority(scope, HIGH)
      && s.criticalTickets <= s.totalTickets && s.highPriorityTickets <= s.totalTickets
      && s.admin == (if caller.value.role == ADMIN then Some(ComputeAdminStats(ts, caller.value.id)) else None)
  {
    match caller
    case None => Err(Unauthorized)
    case Some(c) =>
      var scope := Scope(ts, c);
      Ok(DashboardStats(
        |scope|,
        CountStatus(scope, OPEN),
        CountStatus(scope, IN_PROGRESS),
        CountStatus(scope, WAITING),
        CountStatus(scope, RESOLVED),
        CountStatus(scope, CLOSED),
        CountPriority(scope, CRITICAL),
        CountPriority(scope, HIGH),
        Breakdown(
          Histogram(scope),
          Histogram(Filter(scope, HasStatus(OPEN))),
          Histogram(Filter(scope, HasStatus(IN_PROGRESS))),
          Histogram(Filter(scope, ResolvedOrClosed()))),
        if c.role == ADMIN then Some(ComputeAdminStats(ts, c.id)) else None))
  }

  /** The five status counts add up to `totalTickets`, and so do the values
      of the `myTickets` breakdown. */
  lemma StatsCountsAddUp(ts: seq<Ticket>, c: Caller)
    ensures var s := GetStats(ts, Some(c)).value;
      && s.openTickets + s.inProgressTickets + s.waitingTickets + s.resolvedTickets + s.closedTickets == s.totalTickets
      && HistogramTotal(s.priorityBreakdown.myTickets) == s.totalTickets
  {
    StatusCountsPartition(Scope(ts, c));
    HistogramTotalIsCount(Scope(ts, c));
  }

  /** `h` is the priority histogram of `ts`: each priority that occurs maps
      to its number of tickets, and a priority that does not occur is absent. */
  predicate CountsPriorities(h: map<Priority, nat>, ts: seq<Ticket>) {
    forall p :: (p in h <==> CountPriority(ts, p) > 0) && (p in h ==> h[p] == CountPriority(ts, p))
  }

  /** The four breakdowns every caller gets: over the scope, its OPEN tickets,
      its IN_PROGRESS tickets, and its RESOLVED-or-CLOSED tickets. */
  lemma PriorityBreakdowns(ts: seq<Ticket>, c: Caller)
    ensures var b := GetStats(ts, Some(c)).value.priorityBreakdown;
      var scope := Scope(ts, c);
      && CountsPriorities(b.myTickets, scope)
      && CountsPriorities(b.open, Filter(scope, HasStatus(OPEN)))
      && CountsPriorities(b.inProgress, Filter(scope, HasStatus(IN_PROGRESS)))
      && CountsPriorities(b.resolved, Filter(scope, ResolvedOrClosed()))
  {
    var scope := Scope(ts, c);
    var b := GetStats(ts, Some(c)).value.priorityBreakdown;
    assert b == Breakdown(
      Histogram(scope),
      Histogram(Filter(scope, HasStatus(OPEN))),
      Histogram(Filter(scope, HasStatus(IN_PROGRESS))),
      Histogram(Filter(scope, ResolvedOrClosed())));
  }

  /** The `resolved` breakdown counts RESOLVED and CLOSED tickets, while
      `resolvedTickets` counts RESOLVED ones only. */
  lemma ResolvedBreakdownIncludesClosed(ts: seq<Ticket>, c: Caller)
    ensures var s := GetStats(ts, Some(c)).value;
      && HistogramTotal(s.priorityBreakdown.resolved) == s.resolvedTickets + s.closedTickets
  {
    var scope := Scope(ts, c);
    HistogramTotalIsCount(Filter(scope, ResolvedOrClosed()));
    ResolvedOrClosedCount(scope);
  }

  lemma {:induction false} ResolvedOrClosedCount(ts: seq<Ticket>)
    ensures |Filter(ts, ResolvedOrClosed())| == CountStatus(ts, RESOLVED) + CountStatus(ts, CLOSED)
  {
    if |ts| > 0 {
      ResolvedOrClosedCount(ts[1..]);
      CountStep(ts, ResolvedOrClosed());
      CountStep(ts, HasStatus(RESOLVED));
      CountStep(ts, HasStatus(CLOSED));
    }
  }

  /** A non-admin's statistics depend only on the tickets they created:
      removing everyone else's tickets changes nothing. */
  lemma NonAdminSeesOwnTicketsOnly(ts: seq<Ticket>, c: Caller)
    requires c.role != ADMIN
    ensures GetStats(ts, Some(c)) == GetStats(Filter(ts, CreatedBy(c.id)), Some(c))
  {
    FilterIdempotent(ts, CreatedBy(c.id));
  }

  /** The ADMIN aggregates: unassigned counts tickets with no assignee that
      are not CLOSED, myAssigned counts tickets assigned to the caller. */
  lemma AdminAggregates(ts: seq<Ticket>, c: Caller)
    requires c.role == ADMIN
    ensures var a := GetStats(ts, Some(c)).value.admin.value;
      && (forall t :: t in Filter(ts, UnassignedOpen()) <==> t in ts && t.assignedToId.None? && t.status != CLOSED)
      && a.unassignedTickets == |Filter(ts, UnassignedOpen())|
      && (forall t :: t in Filter(ts, AssignedTo(c.id)) <==> t in ts && t.assignedToId == Some(c.id))
      && a.myAssignedTickets == |Filter(ts, AssignedTo(c.id))|
      && CountsPriorities(a.all, ts)
      && CountsPriorities(a.unassigned, Filter(ts, UnassignedOpen()))
      && CountsPriorities(a.myAssigned, Filter(ts, AssignedTo(c.id)))
      && HistogramTotal(a.all) == |ts|
      && HistogramTotal(a.unassigned) == a.unassignedTickets
      && HistogramTotal(a.myAssigned) == a.myAssignedTickets
      && MeanHours(a.avgResolutionTime, Filter(ts, ResolvedWithTime()))
  {
  }
}

=== FILE: text.dfy ===
/**
 String facts shared by the request handlers: JavaScript string length
 (UTF-16 code units), ASCII lower-casing, decimal rendering of integers as
 JavaScript template literals produce it, and splitting at a separator.
 */
module Text {

  /** Number of UTF-16 code units JavaScript uses for one character:
      characters outside the Basic Multilingual Plane take a surrogate pair. */
  function Utf16Width(c: char): (w: nat)
    ensures 1 <= w <= 2
  {
    if c as int >= 0x10000 then 2 else 1
  }

  /** `s.length` in JavaScript, which is what Zod's `.min`/`.max` compare. */
  function Utf16Length(s: string): (n: nat)
    ensures |s| <= n <= 2 * |s|
  {
    if |s| == 0 then 0 else Utf16Width(s[0]) + Utf16Length(s[1..])
  }

  lemma {:induction false} Utf16LengthAppend(a: string, b: string)
    ensures Utf16Length(a + b) == Utf16Length(a) + Utf16Length(b)
  {
    if |a| == 0 {
      assert a + b == b;
    } else {
      assert (a + b)[0] == a[0];
      assert (a + b)[1..] == a[1..] + b;
      Utf16LengthAppend(a[1..], b);
    }
  }

  function AsciiLowerChar(c: char): (d: char)
    ensures 'A' <= c <= 'Z' ==> d as int == c as int + 32
    ensures !('A' <= c <= 'Z') ==> d == c
  {
    if 'A' <= c <= 'Z' then (c as int + 32) as char else c
  }

  /** Lower-cases the ASCII letters of `s` and leaves every other character alone. */
  function AsciiLower(s: string): (r: string)
    ensures |r| == |s|
    ensures forall i :: 0 <= i < |s| ==> r[i] == AsciiLowerChar(s[i])
  {
    if |s| == 0 then "" else [AsciiLowerChar(s[0])] + AsciiLower(s[1..])
  }

  predicate IsDigit(c: char) {
    '0' <= c <= '9'
  }

  predicate AllDigits(s: string) {
    forall i :: 0 <= i < |s| ==> IsDigit(s[i])
  }

  function DigitChar(d: nat): (c: char)
    requires d < 10
    ensures IsDigit(c) && c as int - '0' as int == d
  {
    ('0' as int + d) as char
  }

  /** `${n}` for a non-negative integer: no sign, no leading zeros. */
  function DecimalString(n: nat): (s: string)
    ensures |s| > 0 && AllDigits(s)
    ensures '-' !in s
    decreases n
  {
    if n < 10 then [DigitChar(n)] else DecimalString(n / 10) + [DigitChar(n % 10)]
  }

  /** Reads back a string of decimal digits. */
  function ParseDecimal(s: string): (n: nat)
    requires AllDigits(s)
    decreases |s|
  {
    if |s| == 0 then 0
    else ParseDecimal(s[..|s| - 1]) * 10 + (s[|s| - 1] as int - '0' as int)
  }

  lemma {:induction false} DecimalRoundTrip(n: nat)
    ensures ParseDecimal(DecimalString(n)) == n
    decreases n
  {
    if n >= 10 {
      var s := DecimalString(n);
      assert s[..|s| - 1] == DecimalString(n / 10);
      DecimalRoundTrip(n / 10);
    }
  }

  lemma DecimalStringInjective(a: nat, b: nat)
    requires DecimalString(a) == DecimalString(b)
    ensures a == b
  {
    DecimalRoundTrip(a);
    DecimalRoundTrip(b);
  }

  /** Position of the first `c` in `s`, or `|s|` when there is none. */
  function FirstIndexOf(s: string, c: char): (k: nat)
    ensures k <= |s|
    ensures forall i :: 0 <= i < k ==> s[i] != c
    ensures k < |s| ==> s[k] == c
  {
    if |s| == 0 then 0 else if s[0] == c then 0 else 1 + FirstIndexOf(s[1..], c)
  }

  lemma {:induction false} FirstIndexOfPrefix(a: string, x: string, sep: char)
    requires sep !in a
    ensures FirstIndexOf(a + [sep] + x, sep) == |a|
  {
    if |a| > 0 {
      assert (a + [sep] + x)[1..] == a[1..] + [sep] + x;
      FirstIndexOfPrefix(a[1..], x, sep);
    }
  }

  /** Two strings built as `a + sep + x` with no separator inside `a` split at the
      same place: the part before the first separator and the rest agree. */
  lemma SplitAtFirst(a: string, x: string, b: string, y: string, sep: char)
    requires sep !in a && sep !in b
    requires a + [sep] + x == b + [sep] + y
    ensures a == b && x == y
  {
    var u := a + [sep] + x;
    FirstIndexOfPrefix(a, x, sep);
    FirstIndexOfPrefix(b, y, sep);
    assert a == u[..|a|];
    assert b == (b + [sep] + y)[..|b|];
    assert x == u[|a| + 1..];
    assert y == (b + [sep] + y)[|b| + 1..];
  }

  lemma PrefixCancel(p: string, x: string, y: string)
    requires p + x == p + y
    ensures x == y
  {
    assert x == (p + x)[|p|..];
    assert y == (p + y)[|p|..];
  }
}

=== FILE: tickets.dfy ===
/**
 The ticket collection endpoint (/api/tickets): the ticket schema shared by
 every creation path, POST creation with its defaults, and GET with role
 scoping, optional filters and newest-first order.
 */
module Tickets {
  import opened Types
  import opened Text

  /** The ticket fields of a request body or form. */
  datatype TicketBody = TicketBody(title: Field, description: Field, category: Field, priority: Field)

  /** The fields after the schema accepted them. */
  datatype TicketData = TicketData(title: string, description: string, category: string, priority: Option<Priority>)

  /** `z.string().min(5).max(200)`. */
  predicate ValidTitle(f: Field) {
    f.Text? && 5 <= Utf16Length(f.s) <= 200
  }

  /** `z.string().min(10)`. */
  predicate ValidDescription(f: Field) {
    f.Text? && Utf16Length(f.s) >= 10
  }

  /** `z.nativeEnum(TicketCategory)`; `categories` holds the enum's values. */
  predicate ValidCategory(f: Field, categories: set<string>) {
    f.Text? && f.s in categories
  }

  /** `z.nativeEnum(TicketPriority).optional()`: absent, or a priority's name. */
  predicate ValidPriority(f: Field) {
    f.Absent? || (f.Text? && ParsePriority(f.s).Some?)
  }

  predicate ValidTicketBody(b: TicketBody, categories: set<string>) {
    ValidTitle(b.title) && ValidDescription(b.description) &&
    ValidCategory(b.category, categories) && ValidPriority(b.priority)
  }

  function ParseTicketBody(b: TicketBody, categories: set<string>): (r: Result<TicketData, ApiError>)
    ensures r.Ok? <==> ValidTicketBody(b, categories)
    ensures r.Err? ==> r.error == InvalidInput
    ensures r.Ok? ==>
      b.title == Text(r.value.title) && b.description == Text(r.value.description) &&
      b.category == Text(r.value.category) && r.value.category in categories &&
      (r.value.priority.None? <==> b.priority.Absent?) &&
      (r.value.priority.Some? ==> b.priority == Text(PriorityName(r.value.priority.value)))
  {
    if !ValidTicketBody(b, categories) then Err(InvalidInput)
    else
      var priority := if b.priority.Text? then ParsePriority(b.priority.s) else None;
      Ok(TicketData(b.title.s, b.description.s, b.category.s, priority))
  }

  /** The record `prisma.ticket.create` stores: OPEN, MEDIUM when no priority
      was given, no assignee, not resolved. */
  function NewTicket(id: string, d: TicketData, creatorId: string, now: int): (t: Ticket)
    ensures t.id == id && t.createdById == creatorId && t.createdAt == now
    ensures t.title == d.title && t.description == d.description && t.category == d.category
    ensures t.status == OPEN && t.assignedToId.None? && t.resolvedAt.None?
    ensures t.priority == (if d.priority.Some? then d.priority.value else MEDIUM)
  {
    Ticket(id, d.title, d.description, OPEN,
           if d.priority.Some? then d.priority.value else MEDIUM,
           d.category, creatorId, None, now, None)
  }

  /** Appends a ticket unless its id is taken, in which case the create fails. */
  function InsertTicket(tickets: seq<Ticket>, t: Ticket): (r: Result<seq<Ticket>, ApiError>)
    ensures r.Ok? <==> !HasTicketId(tickets, t.id)
    ensures r.Ok? ==> r.value == tickets + [t]
    ensures r.Err? ==> r.error == InternalError
  {
    if HasTicketId(tickets, t.id) then Err(InternalError) else Ok(tickets + [t])
  }

  lemma {:induction false} InsertKeepsUniqueIds(tickets: seq<Ticket>, t: Ticket)
    requires UniqueTicketIds(tickets)
    requires !HasTicketId(tickets, t.id)
    ensures UniqueTicketIds(tickets + [t])
  {
    var ts := tickets + [t];
    forall i, j | 0 <= i < j < |ts| ensures ts[i].id != ts[j].id {
      if j == |tickets| {
        assert ts[i] == tickets[i];
      }
    }
  }

  /** POST /api/tickets. `newId`/`now` stand for the id and timestamp the
      database assigns. */
  function CreateTicket(tickets: seq<Ticket>, caller: Option<Caller>, body: TicketBody,
                        categories: set<string>, newId: string, now: int): (r: (seq<Ticket>, Result<Ticket, ApiError>))
    ensures r.1.Err? ==> r.0 == tickets
    ensures caller.None? ==> r.1 == Err(Unauthorized)
    ensures r.1 == Err(InvalidInput) <==> caller.Some? && !ValidTicketBody(body, categories)
    ensures caller.Some? && ValidTicketBody(body, categories) ==>
      (r.1.Ok? <==> !HasTicketId(tickets, newId)) && (r.1.Err? ==> r.1 == Err(InternalError))
    ensures r.1.Ok? ==>
      caller.Some? && ValidTicketBody(body, categories) &&
      r.0 == tickets + [r.1.value] &&
      r.1.value.id == newId && r.1.value.createdById == caller.value.id &&
      r.1.value.status == OPEN && r.1.value.assignedToId.None? &&
      r.1.value.priority == (if body.priority.Absent? then MEDIUM else ParsePriority(body.priority.s).value) &&
      Text(r.1.value.title) == body.title && Text(r.1.value.description) == body.description &&
      Text(r.1.value.category) == body.category && r.1.value.resolvedAt.None? &&
      r.1.value.createdAt == now
  {
    match caller
    case None => (tickets, Err(Unauthorized))
    case Some(c) =>
      match ParseTicketBody(body, categories)
      case Err(e) => (tickets, Err(e))
      case Ok(d) =>
        var t := NewTicket(newId, d, c.id, now);
        match InsertTicket(tickets, t)
        case Err(e) => (tickets, Err(e))
        case Ok(ts) => (ts, Ok(t))
  }

  /** Ticket creation keeps ticket ids unique. */
  lemma CreateTicketKeepsUniqueIds(tickets: seq<Ticket>, caller: Option<Caller>, body: TicketBody,
                                   categories: set<string>, newId: string, now: int)
    requires UniqueTicketIds(tickets)
    ensures UniqueTicketIds(CreateTicket(tickets, caller, body, categories, newId, now).0)
  {
    var (ts, res) := CreateTicket(tickets, caller, body, categories, newId, now);
    if res.Ok? {
      InsertKeepsUniqueIds(tickets, res.value);
    }
  }

  // ---------------------------------------------------------------- listing

  /** The query string of GET /api/tickets; a missing parameter is `None`. */
  datatype ListQuery = ListQuery(status: Option<string>, priority: Option<string>, assignedToMe: Option<string>)

  /** The `where` object the handler builds for `findMany`. */
  datatype Where = Where(
    createdById: Option<string>,
    assignedToId: Option<string>,
    status: Option<Status>,
    priority: Option<Priority>)

  /** A query value that is present and non-empty, i.e. truthy in JavaScript. */
  predicate Given(v: Option<string>) {
    v.Some? && v.value != ""
  }

  /** The handler casts `status` and `priority` without checking them; a
      value that names no enum member makes the query itself fail. */
  function BuildWhere(c: Caller, q: ListQuery): (r: Result<Where, ApiError>)
    ensures r.Err? <==>
      (Given(q.status) && ParseStatus(q.status.value).None?) ||
      (Given(q.priority) && ParsePriority(q.priority.value).None?)
    ensures r.Err? ==> r.error == InternalError
  {
    if Given(q.status) && ParseStatus(q.status.value).None? then Err(InternalError)
    else if Given(q.priority) && ParsePriority(q.priority.value).None? then Err(InternalError)
    else
      Ok(Where(
        if c.role == USER then Some(c.id) else None,
        if c.role == ADMIN && q.assignedToMe == Some("true") then Some(c.id) else None,
        if Given(q.status) then ParseStatus(q.status.value) else None,
        if Given(q.priority) then ParsePriority(q.priority.value) else None))
  }

  /** Prisma's reading of a `where` object: every present field must match. */
  predicate Matches(w: Where, t: Ticket) {
    && (w.createdById.Some? ==> t.createdById == w.createdById.value)
    && (w.assignedToId.Some? ==> t.assignedToId == w.assignedToId)
    && (w.status.Some? ==> t.status == w.status.value)
    && (w.priority.Some? ==> t.priority == w.priority.value)
  }

  /** The listing rules stated directly: a USER sees only their own tickets,
      an ADMIN asking for `assignedToMe=true` only tickets assigned to them,
      and a given status or priority must match. No other role is restricted. */
  predicate Listed(c: Caller, q: ListQuery, t: Ticket) {
    && (c.role == USER ==> t.createdById == c.id)
    && (c.role == ADMIN && q.assignedToMe == Some("true") ==> t.assignedToId == Some(c.id))
    && (Given(q.status) ==> StatusName(t.status) == q.status.value)
    && (Given(q.priority) ==> PriorityName(t.priority) == q.priority.value)
  }

  /** The constructed `where` selects exactly the tickets the listing rules admit. */
  lemma BuildWhereMeansListed(c: Caller, q: ListQuery, t: Ticket)
    requires BuildWhere(c, q).Ok?
    ensures Matches(BuildWhere(c, q).value, t) <==> Listed(c, q, t)
  {
    if Given(q.status) {
      StatusNameRoundTrip(t.status);
    }
    if Given(q.priority) {
      PriorityNameRoundTrip(t.priority);
    }
  }

  function Select(tickets: seq<Ticket>, w: Where): (r: seq<Ticket>)
    ensures |r| <= |tickets|
    ensures forall t :: t in r <==> t in tickets && Matches(w, t)
    ensures multiset(r) <= multiset(tickets)
    ensures forall t :: multiset(r)[t] == if Matches(w, t) then multiset(tickets)[t] else 0
  {
    if |tickets| == 0 then []
    else
      var rest := Select(tickets[1..], w);
      assert tickets == [tickets[0]] + tickets[1..];
      assert multiset(tickets) == multiset{tickets[0]} + multiset(tickets[1..]);
      if Matches(w, tickets[0]) then [tickets[0]] + rest else rest
  }

  predicate NewestFirst(ts: seq<Ticket>) {
    forall i, j :: 0 <= i < j < |ts| ==> ts[i].createdAt >= ts[j].createdAt
  }

  /** Putting a ticket in front of a newest-first list keeps it newest first
      when no ticket of the list is newer than it. */
  lemma ConsNewestFirst(t: Ticket, rest: seq<Ticket>)
    requires NewestFirst(rest)
    requires forall k :: 0 <= k < |rest| ==> t.createdAt >= rest[k].createdAt
    ensures NewestFirst([t] + rest)
  {
    var r := [t] + rest;
    forall i, j | 0 <= i < j < |r| ensures r[i].createdAt >= r[j].createdAt {
      assert r[j] == rest[j - 1];
      if i > 0 {
        assert r[i] == rest[i - 1];
      }
    }
  }

  /** Every ticket of the tail, and any ticket older than the head, is no
      newer than the head of a newest-first list. */
  lemma NoneNewerThanHead(ts: seq<Ticket>, t: Ticket, rest: seq<Ticket>)
    requires NewestFirst(ts) && |ts| > 0
    requires t.createdAt < ts[0].createdAt
    requires multiset(rest) == multiset(ts[1..]) + multiset{t}
    ensures forall k :: 0 <= k < |rest| ==> ts[0].createdAt >= rest[k].createdAt
  {
    forall k | 0 <= k < |rest| ensures ts[0].createdAt >= rest[k].createdAt {
      assert rest[k] in multiset(rest);
      if rest[k] != t {
        assert rest[k] in multiset(ts[1..]);
        var j :| 0 <= j < |ts[1..]| && ts[1..][j] == rest[k];
        assert ts[j + 1] == rest[k];
      }
    }
  }

  /** Places `t` into a newest-first list: after every strictly newer ticket
      and before every ticket no newer than it. */
  function InsertByCreatedAt(t: Ticket, ts: seq<Ticket>): (r: seq<Ticket>)
    requires NewestFirst(ts)
    ensures NewestFirst(r)
    ensures multiset(r) == multiset(ts) + multiset{t}
  {
    if |ts| == 0 then [t]
    else if ts[0].createdAt <= t.createdAt then
      ConsNewestFirst(t, ts);
      [t] + ts
    else
      var rest := InsertByCreatedAt(t, ts[1..]);
      assert ts == [ts[0]] + ts[1..];
      NoneNewerThanHead(ts, t, rest);
      ConsNewestFirst(ts[0], rest);
      [ts[0]] + rest
  }

  /** `orderBy: { createdAt: 'desc' }`. */
  function SortNewestFirst(ts: seq<Ticket>): (r: seq<Ticket>)
    ensures NewestFirst(r)
    ensures multiset(r) == multiset(ts)
  {
    if |ts| == 0 then []
    else
      assert ts == [ts[0]] + ts[1..];
      InsertByCreatedAt(ts[0], SortNewestFirst(ts[1..]))
  }

  /** GET /api/tickets. */
  function ListTickets(tickets: seq<Ticket>, caller: Option<Caller>, q: ListQuery): (r: Result<seq<Ticket>, ApiError>)
    ensures caller.None? ==> r == Err(Unauthorized)
    ensures caller.Some? ==>
      (r.Ok? <==> !(Given(q.status) && ParseStatus(q.status.value).None?) &&
                  !(Given(q.priority) && ParsePriority(q.priority.value).None?))
    ensures caller.Some? && r.Err? ==> r == Err(InternalError)
    ensures r.Ok? ==> caller.Some? && NewestFirst(r.value)
    ensures r.Ok? ==> forall t :: t in r.value ==> t in tickets && Listed(caller.value, q, t)
    ensures r.Ok? ==> forall t :: multiset(r.value)[t] == if Listed(caller.value, q, t) then multiset(tickets)[t] else 0
  {
    match caller
    case None => Err(Unauthorized)
    case Some(c) =>
      match BuildWhere(c, q)
      case Err(e) => Err(e)
      case Ok(w) =>
        var listed := SortNewestFirst(Select(tickets, w));
        assert forall t :: t in listed ==> t in tickets && Listed(c, q, t) by {
          forall t | t in listed ensures t in tickets && Listed(c, q, t) {
            assert t in multiset(listed);
            BuildWhereMeansListed(c, q, t);
          }
        }
        assert forall t :: multiset(listed)[t] == if Listed(c, q, t) then multiset(tickets)[t] else 0 by {
          forall t ensures multiset(listed)[t] == if Listed(c, q, t) then multiset(tickets)[t] else 0 {
            BuildWhereMeansListed(c, q, t);
          }
        }
        Ok(listed)
  }

  /** Completeness: every stored ticket the listing rules admit is returned. */
  lemma ListTicketsComplete(tickets: seq<Ticket>, c: Caller, q: ListQuery, t: Ticket)
    requires ListTickets(tickets, Some(c), q).Ok?
    requires t in tickets && Listed(c, q, t)
    ensures t in ListTickets(tickets, Some(c), q).value
  {
    var w := BuildWhere(c, q).value;
    BuildWhereMeansListed(c, q, t);
    var selected := Select(tickets, w);
    assert t in selected;
    assert t in multiset(SortNewestFirst(selected));
  }

  /** The creator restriction applies to USER callers only: a caller of any
      other role without filters sees every stored ticket. */
  lemma OnlyUsersAreScoped(tickets: seq<Ticket>, c: Caller, t: Ticket)
    requires c.role != USER && t in tickets
    ensures ListTickets(tickets, Some(c), ListQuery(None, None, None)).Ok?
    ensures t in ListTickets(tickets, Some(c), ListQuery(None, None, None)).value
  {
    ListTicketsComplete(tickets, c, ListQuery(None, None, None), t);
  }

  /** `assignedToMe` is ignored for anyone but an ADMIN. */
  lemma AssignedToMeOnlyForAdmins(tickets: seq<Ticket>, c: Caller, status: Option<string>, priority: Option<string>)
    requires c.role != ADMIN
    ensures ListTickets(tickets, Some(c), ListQuery(status, priority, Some("true"))) ==
            ListTickets(tickets, Some(c), ListQuery(status, priority, None))
  {
    assert BuildWhere(c, ListQuery(status, priority, Some("true"))) == BuildWhere(c, ListQuery(status, priority, None));
  }
}

=== FILE: types.dfy ===
/**
 Entities of the ticketing system and the in-memory store that stands in for
 the relational database: users (unique id, unique email), tickets and
 attachments. The enumeration constructors carry the names the database and
 the JSON payloads use.
 */
module Types {

  datatype Option<T> = None | Some(value: T)

  datatype Result<T, E> = Ok(value: T) | Err(error: E)

  /** One field of a JSON body or a multipart form: missing, a string, or any
      other value (JSON null, a number, an object, an uploaded file). */
  datatype Field = Absent | Text(s: string) | NotText

  /** The error responses a handler can produce. */
  datatype ApiError =
    | Unauthorized       // 401 'Unauthorized'
    | InvalidInput       // 400 'Invalid input' (a schema violation)
    | UserAlreadyExists  // 400 'User already exists'
    | InternalError      // 500 'Internal server error' (a store or I/O failure)

  datatype Role = USER | ADMIN | GUEST

  datatype Status = OPEN | IN_PROGRESS | WAITING | RESOLVED | CLOSED

  datatype Priority = LOW | MEDIUM | HIGH | CRITICAL

  function StatusName(s: Status): string {
    match s
    case OPEN => "OPEN"
    case IN_PROGRESS => "IN_PROGRESS"
    case WAITING => "WAITING"
    case RESOLVED => "RESOLVED"
    case CLOSED => "CLOSED"
  }

  /** The status whose database name is exactly `s`, if any. */
  function ParseStatus(s: string): (r: Option<Status>)
    ensures r.Some? ==> StatusName(r.value) == s
    ensures r.None? ==> forall st: Status :: StatusName(st) != s
  {
    if s == "OPEN" then Some(OPEN)
    else if s == "IN_PROGRESS" then Some(IN_PROGRESS)
    else if s == "WAITING" then Some(WAITING)
    else if s == "RESOLVED" then Some(RESOLVED)
    else if s == "CLOSED" then Some(CLOSED)
    else None
  }

  function PriorityName(p: Priority): string {
    match p
    case LOW => "LOW"
    case MEDIUM => "MEDIUM"
    case HIGH => "HIGH"
    case CRITICAL => "CRITICAL"
  }

  /** The priority whose database name is exactly `s`, if any (Zod's `nativeEnum`). */
  function ParsePriority(s: string): (r: Option<Priority>)
    ensures r.Some? ==> PriorityName(r.value) == s
    ensures r.None? ==> forall p: Priority :: PriorityName(p) != s
  {
    if s == "LOW" then Some(LOW)
    else if s == "MEDIUM" then Some(MEDIUM)
    else if s == "HIGH" then Some(HIGH)
    else if s == "CRITICAL" then Some(CRITICAL)
    else None
  }

  lemma StatusNameRoundTrip(s: Status)
    ensures ParseStatus(StatusName(s)) == Some(s)
  {
  }

  lemma PriorityNameRoundTrip(p: Priority)
    ensures ParsePriority(PriorityName(p)) == Some(p)
  {
  }

  /** A stored user. `password` holds a hash, never the plain text; it is
      absent for users who sign in through Keycloak or arrived as guests. */
  datatype User = User(
    id: string,
    email: string,
    name: string,
    role: Role,
    department: Option<string>,
    isActive: bool,
    password: Option<string>,
    isKeycloakUser: bool,
    createdAt: int)

  datatype Ticket = Ticket(
    id: string,
    title: string,
    description: string,
    status: Status,
    priority: Priority,
    category: string,
    createdById: string,
    assignedToId: Option<string>,
    createdAt: int,
    resolvedAt: Option<int>)

  datatype Attachment = Attachment(
    id: string,
    fileName: string,
    filePath: string,
    fileSize: nat,
    mimeType: string,
    ticketId: string,
    uploadedById: string)

  datatype Store = Store(users: seq<User>, tickets: seq<Ticket>, attachments: seq<Attachment>)

  /** The signed-in user a route handler reads from the session. */
  datatype Caller = Caller(id: string, role: Role)

  predicate UniqueEmails(users: seq<User>) {
    forall i, j :: 0 <= i < j < |users| ==> users[i].email != users[j].email
  }

  predicate UniqueIds(users: seq<User>) {
    forall i, j :: 0 <= i < j < |users| ==> users[i].id != users[j].id
  }

  predicate ValidUsers(users: seq<User>) {
    UniqueEmails(users) && UniqueIds(users)
  }

  predicate UniqueTicketIds(tickets: seq<Ticket>) {
    forall i, j :: 0 <= i < j < |tickets| ==> tickets[i].id != tickets[j].id
  }

  /** The constraints the database schema enforces. */
  predicate ValidStore(st: Store) {
    ValidUsers(st.users) && UniqueTicketIds(st.tickets)
  }

  /** The user fields the schema declares `@unique`. */
  datatype UniqueField = ByEmail | ById

  function Key(u: User, f: UniqueField): string {
    match f
    case ByEmail => u.email
    case ById => u.id
  }

  /** `findUnique({ where: { email } })` and `findUnique({ where: { id } })`. */
  function FindUnique(users: seq<User>, f: UniqueField, value: string): (r: Option<nat>)
    ensures r.Some? ==> r.value < |users| && Key(users[r.value], f) == value
    ensures r.None? ==> forall i :: 0 <= i < |users| ==> Key(users[i], f) != value
  {
    if |users| == 0 then None
    else if Key(users[0], f) == value then Some(0)
    else match FindUnique(users[1..], f, value)
      case None => None
      case Some(k) => Some(k + 1)
  }

  predicate HasEmail(users: seq<User>, email: string) {
    exists i :: 0 <= i < |users| && users[i].email == email
  }

  predicate HasUserId(users: seq<User>, id: string) {
    exists i :: 0 <= i < |users| && users[i].id == id
  }

  predicate HasTicketId(tickets: seq<Ticket>, id: string) {
    exists i :: 0 <= i < |tickets| && tickets[i].id == id
  }

  /** Number of users carrying `email`. */
  function EmailCount(users: seq<User>, email: string): nat {
    if |users| == 0 then 0
    else (if users[0].email == email then 1 else 0) + EmailCount(users[1..], email)
  }

  /** Appending a user whose id and email are both new keeps the store's constraints. */
  lemma {:induction false} AppendKeepsValidUsers(users: seq<User>, u: User)
    requires ValidUsers(users)
    requires !HasEmail(users, u.email) && !HasUserId(users, u.id)
    ensures ValidUsers(users + [u])
  {
    var us := users + [u];
    forall i, j | 0 <= i < j < |us|
      ensures us[i].email != us[j].email && us[i].id != us[j].id
    {
      if j == |users| {
        assert us[i] == users[i];
      }
    }
  }

  /** Under unique emails exactly one user carries a present email. */
  lemma {:induction false} EmailCountUnique(users: seq<User>, email: string)
    requires UniqueEmails(users)
    ensures EmailCount(users, email) == (if HasEmail(users, email) then 1 else 0)
  {
    if |users| > 0 {
      assert UniqueEmails(users[1..]) by {
        forall i, j | 0 <= i < j < |users[1..]|
          ensures users[1..][i].email != users[1..][j].email
        {
          assert users[1..][i] == users[i + 1] && users[1..][j] == users[j + 1];
        }
      }
      EmailCountUnique(users[1..], email);
      if users[0].email == email {
        forall i | 0 <= i < |users[1..]| ensures users[1..][i].email != email {
          assert users[1..][i] == users[i + 1];
        }
      } else if HasEmail(users, email) {
        var k :| 0 <= k < |users| && users[k].email == email;
        assert users[1..][k - 1] == users[k];
      } else {
        forall i | 0 <= i < |users[1..]| ensures users[1..][i].email != email {
          assert users[1..][i] == users[i + 1];
        }
      }
    }
  }

  /** `r` is `Math.round(a / b)`: the integer nearest to the rational a / b,
      halves rounded up toward positive infinity. */
  predicate RoundsTo(r: int, a: int, b: int) {
    2 * b * r <= 2 * a + b < 2 * b * (r + 1)
  }

  /** `Math.round(x)` for the rational x = a / b. */
  function RoundHalfUp(a: int, b: int): (r: int)
    requires b > 0
    ensures RoundsTo(r, a, b)
  {
    (2 * a + b) / (2 * b)
  }
}

=== FILE: uploads.dfy ===
/**
 File handling of the anonymous submission: the size filter, file-name
 sanitising, the stored name `<timestamp>-<index>-<sanitised>` under
 `/uploads/<ticketId>/`, and the attachment records of the files whose
 write succeeded.
 */
module Uploads {
  import opened Types
  import opened Text

  /** The limit that applies when MAX_FILE_SIZE is unset, and its spelling. */
  const DefaultMaxFileSize: nat := 10485760
  const DefaultMaxFileSizeSetting: string := "10485760"

  /** The MIME type recorded when the browser sent none. */
  const DefaultMimeType: string := "application/octet-stream"

  /** An uploaded file. `writes` is the outcome of writing it to disk, which
      the model takes as given. */
  datatype UploadFile = UploadFile(name: string, size: nat, mimeType: string, writes: bool)

  /** One `files` entry of the form: a file, or a plain string value. */
  datatype FormEntry = FileEntry(file: UploadFile) | TextEntry(value: string)

  /** The parsed MAX_FILE_SIZE; `None` when `parseInt` produced NaN, against
      which every `>` comparison is false. */
  type SizeLimit = Option<int>

  /** `parseInt(process.env.MAX_FILE_SIZE || '10485760')`. A setting of
      plain decimal digits is read as that number; any other spelling
      (whitespace, a sign, a hexadecimal prefix, trailing text) is handed to
      `parseInt`, whose `None` stands for NaN. */
  function MaxFileSize(setting: Option<string>, parseInt: string -> SizeLimit): (l: SizeLimit)
    ensures setting.None? || setting.value == "" ==> l == Some(DefaultMaxFileSize)
    ensures setting.Some? && setting.value != "" && AllDigits(setting.value) ==>
      l == Some(ParseDecimal(setting.value))
  {
    var s := if setting.Some? && setting.value != "" then setting.value else DefaultMaxFileSizeSetting;
    assert ParseDecimal(DefaultMaxFileSizeSetting) == DefaultMaxFileSize by {
      var d := DefaultMaxFileSizeSetting;
      assert ParseDecimal(d[..1]) == 1 by { assert d[..1][..0] == ""; }
      assert ParseDecimal(d[..2]) == 10 by { assert d[..2][..1] == d[..1]; }
      assert ParseDecimal(d[..3]) == 104 by { assert d[..3][..2] == d[..2]; }
      assert ParseDecimal(d[..4]) == 1048 by { assert d[..4][..3] == d[..3]; }
      assert ParseDecimal(d[..5]) == 10485 by { assert d[..5][..4] == d[..4]; }
      assert ParseDecimal(d[..6]) == 104857 by { assert d[..6][..5] == d[..5]; }
      assert ParseDecimal(d[..7]) == 1048576 by { assert d[..7][..6] == d[..6]; }
      assert d[..8][..7] == d[..7] && d[..8] == d;
    }
    if AllDigits(s) then Some(ParseDecimal(s)) else parseInt(s)
  }

  /** A limit written out in decimal is read back as itself. */
  lemma MaxFileSizeOfDecimal(n: nat, parseInt: string -> SizeLimit)
    ensures MaxFileSize(Some(DecimalString(n)), parseInt) == Some(n)
  {
    DecimalRoundTrip(n);
  }

  predicate WithinLimit(f: UploadFile, limit: SizeLimit) {
    !(limit.Some? && f.size > limit.value)
  }

  /** What the filter keeps of one entry: the file when it is within the
      limit, nothing otherwise. */
  function Kept(e: FormEntry, limit: SizeLimit): (r: seq<UploadFile>)
    ensures forall f :: multiset(r)[f] == if e == FileEntry(f) && WithinLimit(f, limit) then 1 else 0
  {
    match e
    case FileEntry(f) => if WithinLimit(f, limit) then [f] else []
    case TextEntry(_) => []
  }

  /** The `validFiles` filter: file entries no larger than the limit, in
      order. ValidFilesCounts says each is kept as often as it was sent. */
  function ValidFiles(entries: seq<FormEntry>, limit: SizeLimit): (r: seq<UploadFile>)
    ensures |r| <= |entries|
  {
    if |entries| == 0 then [] else Kept(entries[0], limit) + ValidFiles(entries[1..], limit)
  }

  /** Each file within the limit survives as often as it was sent, and no
      other does. */
  lemma {:induction false} ValidFilesMultiplicity(entries: seq<FormEntry>, limit: SizeLimit)
    ensures forall f :: multiset(ValidFiles(entries, limit))[f]
                        == if WithinLimit(f, limit) then multiset(entries)[FileEntry(f)] else 0
  {
    if |entries| > 0 {
      ValidFilesMultiplicity(entries[1..], limit);
      assert entries == [entries[0]] + entries[1..];
      assert multiset(entries) == multiset{entries[0]} + multiset(entries[1..]);
      assert multiset(ValidFiles(entries, limit))
          == multiset(Kept(entries[0], limit)) + multiset(ValidFiles(entries[1..], limit));
    }
  }

  /** Exactly the file entries within the limit survive, each as often as it
      was sent. */
  lemma ValidFilesCounts(entries: seq<FormEntry>, limit: SizeLimit)
    ensures forall f :: f in ValidFiles(entries, limit) <==> FileEntry(f) in entries && WithinLimit(f, limit)
    ensures forall f :: multiset(ValidFiles(entries, limit))[f]
                        == if WithinLimit(f, limit) then multiset(entries)[FileEntry(f)] else 0
  {
    ValidFilesMultiplicity(entries, limit);
    var r := ValidFiles(entries, limit);
    forall f ensures f in r <==> FileEntry(f) in entries && WithinLimit(f, limit) {
      assert f in r <==> multiset(r)[f] > 0;
      assert FileEntry(f) in entries <==> multiset(entries)[FileEntry(f)] > 0;
    }
  }

  /** The filter keeps the order of the form: it distributes over
      concatenation, so a file's index among the valid files is the number of
      valid files sent before it. */
  lemma {:induction false} ValidFilesAppend(a: seq<FormEntry>, b: seq<FormEntry>, limit: SizeLimit)
    ensures ValidFiles(a + b, limit) == ValidFiles(a, limit) + ValidFiles(b, limit)
  {
    if |a| == 0 {
      assert a + b == b;
    } else {
      assert (a + b)[0] == a[0];
      assert (a + b)[1..] == a[1..] + b;
      ValidFilesAppend(a[1..], b, limit);
    }
  }

  /** A file exactly at the limit is kept; one byte more and it is dropped. */
  lemma LimitIsInclusive(f: UploadFile, limit: int)
    ensures f.size == limit ==> ValidFiles([FileEntry(f)], Some(limit)) == [f]
    ensures f.size == limit + 1 ==> ValidFiles([FileEntry(f)], Some(limit)) == []
  {
  }

  /** The characters the sanitiser keeps: `[a-zA-Z0-9.-]`. */
  predicate IsSafeChar(c: char) {
    ('a' <= c <= 'z') || ('A' <= c <= 'Z') || ('0' <= c <= '9') || c == '.' || c == '-'
  }

  /** The characters a sanitised name is made of: safe ones and '_'. */
  predicate IsSanitizedChar(c: char) {
    IsSafeChar(c) || c == '_'
  }

  predicate AllSanitized(s: string) {
    forall i :: 0 <= i < |s| ==> IsSanitizedChar(s[i])
  }

  function Underscores(n: nat): (r: string)
    ensures |r| == n && forall i :: 0 <= i < n ==> r[i] == '_'
  {
    if n == 0 then "" else "_" + Underscores(n - 1)
  }

  /** `name.replace(/[^a-zA-Z0-9.-]/g, '_')`. The pattern has no `u` flag, so
      it works on UTF-16 code units: a character outside the Basic
      Multilingual Plane is a surrogate pair and becomes two underscores. */
  function SanitizeFileName(s: string): (r: string)
    ensures AllSanitized(r)
  {
    if |s| == 0 then ""
    else
      var head := if IsSafeChar(s[0]) then [s[0]] else Underscores(Utf16Width(s[0]));
      var rest := SanitizeFileName(s[1..]);
      assert forall i :: 0 <= i < |head + rest| ==> IsSanitizedChar((head + rest)[i]) by {
        forall i | 0 <= i < |head + rest| ensures IsSanitizedChar((head + rest)[i]) {
          if i >= |head| {
            assert (head + rest)[i] == rest[i - |head|];
          }
        }
      }
      head + rest
  }

  /** One character: a safe one is kept, any other becomes one underscore
      per UTF-16 code unit, so two for a character outside the Basic
      Multilingual Plane. */
  lemma SanitizeChar(c: char)
    ensures SanitizeFileName([c]) == if IsSafeChar(c) then [c] else Underscores(Utf16Width(c))
  {
    assert [c][1..] == "";
  }

  /** The regex replaces each character on its own: sanitising distributes
      over concatenation. */
  lemma {:induction false} SanitizeAppend(a: string, b: string)
    ensures SanitizeFileName(a + b) == SanitizeFileName(a) + SanitizeFileName(b)
  {
    if |a| == 0 {
      assert a + b == b;
    } else {
      assert (a + b)[0] == a[0];
      assert (a + b)[1..] == a[1..] + b;
      SanitizeAppend(a[1..], b);
    }
  }

  /** A sanitised name never contains a path separator. */
  lemma SanitizedHasNoSlash(s: string)
    ensures '/' !in SanitizeFileName(s)
  {
  }

  /** Sanitising keeps the JavaScript length of the name. */
  lemma {:induction false} SanitizeKeepsLength(s: string)
    ensures Utf16Length(SanitizeFileName(s)) == Utf16Length(s)
  {
    if |s| > 0 {
      var head := if IsSafeChar(s[0]) then [s[0]] else Underscores(Utf16Width(s[0]));
      SanitizeKeepsLength(s[1..]);
      Utf16LengthAppend(head, SanitizeFileName(s[1..]));
      if !IsSafeChar(s[0]) {
        assert Utf16Length(head) == Utf16Width(s[0]) by {
          if Utf16Width(s[0]) == 2 {
            assert head == "_" + "_";
            Utf16LengthAppend("_", "_");
          }
        }
      }
    }
  }

  /** A name made of safe characters and underscores is left as it is. */
  lemma {:induction false} SanitizeKeepsSafe(s: string)
    requires AllSanitized(s)
    ensures SanitizeFileName(s) == s
  {
    if |s| > 0 {
      SanitizeKeepsSafe(s[1..]);
      assert s == [s[0]] + s[1..];
    }
  }

  /** Sanitising twice gives what sanitising once gives. */
  lemma SanitizeIdempotent(s: string)
    ensures SanitizeFileName(SanitizeFileName(s)) == SanitizeFileName(s)
  {
    SanitizeKeepsSafe(SanitizeFileName(s));
  }

  /** On Basic Multilingual Plane names, sanitising replaces each unsafe
      character by one underscore and keeps every safe one in place. */
  lemma {:induction false} SanitizePointwise(s: string)
    requires forall i :: 0 <= i < |s| ==> s[i] as int < 0x10000
    ensures |SanitizeFileName(s)| == |s|
    ensures forall i :: 0 <= i < |s| ==>
      SanitizeFileName(s)[i] == (if IsSafeChar(s[i]) then s[i] else '_')
  {
    if |s| > 0 {
      SanitizePointwise(s[1..]);
      var r := SanitizeFileName(s);
      var rest := SanitizeFileName(s[1..]);
      assert r == [r[0]] + rest;
      forall i | 0 <= i < |s| ensures r[i] == (if IsSafeChar(s[i]) then s[i] else '_') {
        if i > 0 {
          assert r[i] == rest[i - 1];
          assert s[1..][i - 1] == s[i];
        }
      }
    }
  }

  /** The name a file is written under: `${timestamp}-${index}-${sanitised}`. */
  function StoredFileName(stamp: nat, index: nat, sanitized: string): string {
    DecimalString(stamp) + "-" + DecimalString(index) + "-" + sanitized
  }

  /** The recorded path, `/uploads/<ticketId>/<fileName>`. */
  function UploadPath(ticketId: string, fileName: string): string {
    "/uploads/" + ticketId + "/" + fileName
  }

  /** A stored name determines its timestamp, index and sanitised part. */
  lemma StoredFileNameInjective(t1: nat, i1: nat, s1: string, t2: nat, i2: nat, s2: string)
    requires StoredFileName(t1, i1, s1) == StoredFileName(t2, i2, s2)
    ensures t1 == t2 && i1 == i2 && s1 == s2
  {
    var a1, a2 := DecimalString(t1), DecimalString(t2);
    var b1, b2 := DecimalString(i1), DecimalString(i2);
    assert StoredFileName(t1, i1, s1) == a1 + ['-'] + (b1 + ['-'] + s1);
    assert StoredFileName(t2, i2, s2) == a2 + ['-'] + (b2 + ['-'] + s2);
    SplitAtFirst(a1, b1 + ['-'] + s1, a2, b2 + ['-'] + s2, '-');
    SplitAtFirst(b1, s1, b2, s2, '-');
    DecimalStringInjective(t1, t2);
    DecimalStringInjective(i1, i2);
  }

  /** Files of one submission get distinct paths even when the clock returns
      the same timestamp for them, because their indices differ. */
  lemma DistinctIndicesDistinctPaths(ticketId: string, t1: nat, i1: nat, n1: string, t2: nat, i2: nat, n2: string)
    requires i1 != i2
    ensures UploadPath(ticketId, StoredFileName(t1, i1, SanitizeFileName(n1))) !=
            UploadPath(ticketId, StoredFileName(t2, i2, SanitizeFileName(n2)))
  {
    var p1 := StoredFileName(t1, i1, SanitizeFileName(n1));
    var p2 := StoredFileName(t2, i2, SanitizeFileName(n2));
    if UploadPath(ticketId, p1) == UploadPath(ticketId, p2) {
      assert UploadPath(ticketId, p1) == ("/uploads/" + ticketId + "/") + p1;
      assert UploadPath(ticketId, p2) == ("/uploads/" + ticketId + "/") + p2;
      PrefixCancel("/uploads/" + ticketId + "/", p1, p2);
      StoredFileNameInjective(t1, i1, SanitizeFileName(n1), t2, i2, SanitizeFileName(n2));
    }
  }

  /** `file.type || 'application/octet-stream'`. */
  function MimeOrDefault(mime: string): (m: string)
    ensures m != ""
    ensures mime != "" ==> m == mime
    ensures mime == "" ==> m == DefaultMimeType
  {
    if mime == "" then DefaultMimeType else mime
  }

  /** Where a submission's files go and who uploaded them. `stamp(i)` is the
      clock reading taken for the i-th valid file and `newId(i)` the id the
      database gives its attachment record. */
  datatype UploadContext = UploadContext(
    ticketId: string,
    uploaderId: string,
    stamp: nat -> nat,
    newId: nat -> string)

  function PathAt(ctx: UploadContext, i: nat, f: UploadFile): string {
    UploadPath(ctx.ticketId, StoredFileName(ctx.stamp(i), i, SanitizeFileName(f.name)))
  }

  /** The attachment record of the valid file at index `i`. */
  function RecordAt(ctx: UploadContext, i: nat, f: UploadFile): Attachment {
    Attachment(ctx.newId(i), f.name, PathAt(ctx, i, f), f.size, MimeOrDefault(f.mimeType),
               ctx.ticketId, ctx.uploaderId)
  }

  function WrittenCount(files: seq<UploadFile>): (n: nat)
    ensures n <= |files|
  {
    if |files| == 0 then 0 else (if files[0].writes then 1 else 0) + WrittenCount(files[1..])
  }

  /** `a` is the record of one of `files` (the valid files from index
      `start` on) whose write succeeded. */
  predicate RecordOf(ctx: UploadContext, files: seq<UploadFile>, start: nat, a: Attachment) {
    exists j :: 0 <= j < |files| && files[j].writes && a == RecordAt(ctx, start + j, files[j])
  }

  /** A record of the files after the first is a record of the whole list
      with an index past `start`. */
  lemma RecordOfTail(ctx: UploadContext, files: seq<UploadFile>, start: nat, a: Attachment)
    requires |files| > 0 && RecordOf(ctx, files[1..], start + 1, a)
    ensures RecordOf(ctx, files, start, a)
    ensures exists j :: 1 <= j < |files| && a == RecordAt(ctx, start + j, files[j])
  {
    var j :| 0 <= j < |files[1..]| && files[1..][j].writes && a == RecordAt(ctx, start + 1 + j, files[1..][j]);
    assert files[1..][j] == files[j + 1];
  }

  /** The attachment records of `files`, the valid files from index `start`
      on: one per file whose write succeeded, in order. */
  function Records(ctx: UploadContext, files: seq<UploadFile>, start: nat): (r: seq<Attachment>)
    ensures |r| == WrittenCount(files)
    ensures forall k :: 0 <= k < |r| ==> RecordOf(ctx, files, start, r[k])
    decreases |files|
  {
    if |files| == 0 then []
    else
      var rest := Records(ctx, files[1..], start + 1);
      forall k | 0 <= k < |rest| ensures RecordOf(ctx, files, start, rest[k]) {
        RecordOfTail(ctx, files, start, rest[k]);
      }
      if !files[0].writes then rest
      else
        var head := RecordAt(ctx, start, files[0]);
        assert RecordOf(ctx, files, start, head) by {
          assert head == RecordAt(ctx, start + 0, files[0]);
        }
        [head] + rest
  }

  /** A record of a later file never takes the path of the file at `start`. */
  lemma LaterRecordPathDiffers(ctx: UploadContext, files: seq<UploadFile>, start: nat, a: Attachment)
    requires |files| > 0 && RecordOf(ctx, files[1..], start + 1, a)
    ensures a.filePath != PathAt(ctx, start, files[0])
  {
    RecordOfTail(ctx, files, start, a);
    var j :| 1 <= j < |files| && a == RecordAt(ctx, start + j, files[j]);
    DistinctIndicesDistinctPaths(ctx.ticketId, ctx.stamp(start), start, files[0].name,
                                 ctx.stamp(start + j), start + j, files[j].name);
  }

  predicate DistinctPaths(r: seq<Attachment>) {
    forall k1, k2 :: 0 <= k1 < k2 < |r| ==> r[k1].filePath != r[k2].filePath
  }

  lemma ConsKeepsDistinctPaths(head: Attachment, rest: seq<Attachment>)
    requires DistinctPaths(rest)
    requires forall k :: 0 <= k < |rest| ==> rest[k].filePath != head.filePath
    ensures DistinctPaths([head] + rest)
  {
    var r := [head] + rest;
    forall k1, k2 | 0 <= k1 < k2 < |r| ensures r[k1].filePath != r[k2].filePath {
      assert r[k2] == rest[k2 - 1];
      if k1 > 0 {
        assert r[k1] == rest[k1 - 1];
      }
    }
  }

  /** The records of one submission have pairwise distinct paths. */
  lemma {:induction false} RecordsHaveDistinctPaths(ctx: UploadContext, files: seq<UploadFile>, start: nat)
    ensures DistinctPaths(Records(ctx, files, start))
    decreases |files|
  {
    if |files| > 0 {
      var rest := Records(ctx, files[1..], start + 1);
      RecordsHaveDistinctPaths(ctx, files[1..], start + 1);
      if files[0].writes {
        var head := RecordAt(ctx, start, files[0]);
        assert Records(ctx, files, start) == [head] + rest;
        forall k | 0 <= k < |rest| ensures rest[k].filePath != head.filePath {
          LaterRecordPathDiffers(ctx, files, start, rest[k]);
        }
        ConsKeepsDistinctPaths(head, rest);
      }
    }
  }

  /** Every attachment record of a submission belongs to its ticket and
      uploader, names the original file, and has a non-empty MIME type. */
  lemma RecordsDescribeFiles(ctx: UploadContext, files: seq<UploadFile>, a: Attachment)
    requires a in Records(ctx, files, 0)
    ensures a.ticketId == ctx.ticketId && a.uploadedById == ctx.uploaderId && a.mimeType != ""
    ensures exists f :: f in files && f.writes && a.fileName == f.name && a.fileSize == f.size &&
                        a.mimeType == MimeOrDefault(f.mimeType)
  {
    var r := Records(ctx, files, 0);
    var k :| 0 <= k < |r| && r[k] == a;
    assert RecordOf(ctx, files, 0, r[k]);
    var j :| 0 <= j < |files| && files[j].writes && a == RecordAt(ctx, 0 + j, files[j]);
    assert files[j] in files;
  }
}
